=== FILE: README.md ===
# NeuroNarrative backend core in Dafny

This project models the rules of the NeuroNarrative analysis backend and proves
properties about them. The backend takes a galvanic-skin-response (GSR) export
and a session recording. It finds arousal events in the signal and attaches to
each event the words spoken around it, plus an optional one-line summary. It
also stores uploads under names that do not overwrite existing files.

The model covers the pure decisions the backend makes:

- **Transcript window** (`transcript.dfy`, module `Transcript`). This is
  `align_transcript`. It keeps the words whose start time lies in the closed
  window around an event and whose confidence is not known to be below the
  threshold. Transcript order is kept.
- **Event detection** (`events.dfy`, module `Events`). This is `detect_events`
  after its numeric detectors:
  - ruleset lookup with fallback to the default rule;
  - conversion of change-point breakpoints to sample indices;
  - the candidate set, sorted;
  - the greedy minimum-gap pass;
  - one event record per kept index.

  The guard cases of `_estimate_rate` and `_zscore` are here too.
- **Loading and payloads** (`analysis.dfy`, module `Analysis`):
  - `_load_gsr`: column choice, millisecond rescaling and sorting;
  - `_infer_sampling_rate` and the duration metadata;
  - `process_event`: the per-event payload, with its excerpt and summary rules.
- **Summary text** (`summary.dfy`, module `Summary`). This is the word-count
  gate of `summarize_with_local_llm` and the fallback that shortens a non-JSON
  reply to the first twenty words of its first line.
- **Upload names** (`storage.dfy`, module `Storage`). This is the name search in
  `save_temp_upload`. The model returns the upload's own name when it is free.
  Otherwise it returns `stem-k` plus the suffix, for the least free `k >= 1`.

Shared helpers:

- `results.dfy`: `Option` and `Result`.
- `sequences.dfy`: subsequences and strictly increasing sequences.
- `text.dfy`: the Python string operations the code relies on. These are
  `str.isspace`, `strip`, `split()`, `" ".join`, ASCII case mapping, substring
  search, and decimal rendering of integers.
- `sorting.dfy`: sorting by a real key.
- `stats.dfy`: sum, mean, population variance and median.

Modelling choices:

- Timestamps, readings and scores are exact `real`s.
- The numeric detectors are inputs to `Events.DetectEvents`. These are the
  z-scored derivative of the readings (`drz`) and the breakpoints the PELT
  change-point search reports. The square root behind `np.std` is an input as
  well (`std`): `Events.IsStdOf` only requires that it be non-negative and that
  its square be the variance.
- The parsed CSV is a `Table` of headers and numeric rows.
- The language model's reply is a parameter. It is either a decoded JSON object
  or a text that does not decode. The summarizer used by `process_event` is a
  function parameter.
- The random id used for events without one is a parameter.
- The directory is the finite set of names it already holds.

The time-unit rule is the backend's: divide by 1000 exactly when the largest
raw time exceeds 1000.

`_load_gsr` renames by column name and then selects the columns "time" and
"resistance". When the rename leaves no single column of that name, pandas
raises instead of returning a table. This happens when one header is chosen
for both roles and no other header is literally "time", or when the rename
leaves two columns of one name, for instance because another header is
literally "time" or "resistance".
The model returns `ColumnSelectionError` for this case. The 400 error is
modelled separately as `MissingColumnsError`.

## Model

| member | source | states |
|---|---|---|
| Transcript.AlignTranscript | backend/app/services/transcript.py:22-32 | The selected words form a subsequence of the input, so transcript order is kept. Every selected word has a start time inside the closed window `[event_time - pre_window, event_time + post_window]`. No selected word has a known confidence below the threshold. |
| Transcript.AlignTranscriptCounts | backend/app/services/transcript.py:25-31 | Nothing else is dropped or added. A word passing the filter appears as often as in the input. A word failing it never appears. |
| Transcript.AlignTranscriptComplete | backend/app/services/transcript.py:25-31 | Completeness: every input word with a start in the window and no low confidence is selected. |
| Transcript.DefaultThreshold | backend/app/services/transcript.py:20-30 | With the default threshold, a word in the window is dropped exactly when its confidence is known and below 0.5. A missing confidence keeps the word. |
| Transcript.AlignKeepsPassingWords | backend/app/services/transcript.py:24-32 | A list whose words all pass the filter comes back unchanged. |
| Transcript.AlignIdempotent | backend/app/services/transcript.py:24-32 | Filtering the output again with the same arguments returns the same list. |
| Events.RuleFor | backend/app/services/events.py:18-26 | A known ruleset name selects its own rule, which carries that name. Any other name selects the rule named "default". All thresholds, gaps and penalties are positive. |
| Events.PositiveIntervals | backend/app/services/events.py:66-67 | The kept intervals are all positive, and there are as many as there are positive successive differences. |
| Events.PositiveIntervalsInOrder | backend/app/services/events.py:66-67 | The kept intervals are drawn in order from the successive differences of the timestamps. |
| Events.NoPositiveIntervals | backend/app/services/events.py:66-68 | There are no positive intervals exactly when no timestamp is later than the one before it. |
| Events.EstimateRate | backend/app/services/events.py:63-70 | The rate is never negative. It is zero exactly when there is no positive interval. Otherwise the rate times the mean positive interval is 1. |
| Events.EstimateRateZero | backend/app/services/events.py:63-70 | The rate is zero exactly when there are fewer than two timestamps or no timestamp is later than the one before it. |
| Events.ZScore | backend/app/services/events.py:82-89 | There is one score per element. All scores are zero when the standard deviation is zero. Otherwise each score times the deviation equals the element's distance from the mean. |
| Events.BreakpointIndicesFrom | backend/app/services/events.py:79 | Each produced index is one below a reported breakpoint. |
| Events.BreakpointIndicesCover | backend/app/services/events.py:79 | Each positive breakpoint contributes the index one below it. |
| Events.BreakpointIndicesIncreasing | backend/app/services/events.py:79 | Increasing breakpoints give increasing indices, so order is kept. |
| Events.ChangepointCandidates | backend/app/services/events.py:73-79 | A signal shorter than ten samples yields no change points. Otherwise the candidates are exactly the non-negative indices `i` with `i + 1` among the breakpoints. |
| Events.SortedCandidates | backend/app/services/events.py:30-34 | The candidates visited by the pass are valid sample positions, strictly increasing, and are exactly the indices whose derivative z-score reaches the rule's threshold together with the change-point indices. |
| Events.SortedBelow | backend/app/services/events.py:30-34 | `sorted` of the candidate set: strictly increasing, so without duplicates, with exactly the set's members in range. |
| Events.KeptUpToSubsequence | backend/app/services/events.py:34-41 | At every point of the pass, the kept indices are drawn in order from the candidates seen so far. |
| Events.KeptUpToSpacing | backend/app/services/events.py:36-41 | At every point of the pass, the first kept index is at least `min_gap_sec` after -1e9. Each further index is at least `min_gap_sec` after the previous kept one. |
| Events.EnforceMinGap | backend/app/services/events.py:33-41 | The min-gap pass keeps candidates in their sorted order. Consecutive kept timestamps are at least `min_gap_sec` apart. |
| Events.MinGapDecision | backend/app/services/events.py:37-41 | Drop rule: a candidate is kept exactly when its time is at least `min_gap_sec` after the last index kept before it, or after -1e9 when none was kept. |
| Events.MinGapMembershipSettled | backend/app/services/events.py:37-41 | Later iterations never remove an index kept earlier and never add an index already passed over. |
| Events.KeptUpToIsPrefixPass | backend/app/services/events.py:37-41 | The state after `m` iterations is what the whole pass gives on the first `m` candidates alone. |
| Events.EventIdInjective | backend/app/services/events.py:52 | Distinct indices get distinct `evt-<idx>` ids. |
| Events.MakeEvent | backend/app/services/events.py:48-58 | The record carries the index's id and time and the rule's name. `delta_kohm` plus the median baseline gives back the reading. `delta_z` is the index's z-score when one exists and absent otherwise. The score is non-negative: the sum of the two magnitudes, or the magnitude of `delta_kohm` alone without a z-score. |
| Events.AssembleEvents | backend/app/services/events.py:43-59 | No readings give no events. Otherwise there is exactly one event per kept index, in order: the record built from that index, the readings' z-scores and their median, with id `evt-<idx>`, the index's time, the rule's name, the index's z-score, `delta_kohm` equal to the reading minus the median, and a score of at least 0. |
| Events.KeptIndices | backend/app/services/events.py:30-41 | The kept indices are valid sample positions, strictly increasing, and spaced at least `min_gap_sec` apart in time. A sorted candidate is kept exactly when its time is at least `min_gap_sec` after the last index kept before it (or after -1e9 when none was). |
| Events.KeptIndicesAreCandidates | backend/app/services/events.py:30-40 | Every kept index is a candidate: a derivative z-score at or above the threshold, or a change point. |
| Events.EventsInherit | backend/app/services/events.py:47-59 | Events built one per kept index keep the indices' time spacing and get pairwise distinct ids. |
| Events.DetectEvents | backend/app/services/events.py:25-60 | With readings there is one event per kept index of the selected rule, in order, each with that index's id and time; no readings give no events. Every event carries the selected rule's name and a non-negative score. Event times are at least the rule's minimum gap apart, and ids are pairwise distinct. `Events.DetectEventsAssembles` pins the remaining fields. |
| Events.DetectEventsAssembles | backend/app/services/events.py:43-59 | The detected events are exactly the records assembled for the kept indices of the selected rule, measured against the median reading. So each event's `delta_kohm`, `delta_z` and score are the ones `Events.AssembleEvents` and `Events.MakeEvent` state for its index. |
| Analysis.ResolveColumns | backend/app/services/analysis.py:109-116 | The HTTP 400 error comes exactly when no header mentions "time" or none mentions "resistance". Any other failure is the selection error for "time" or for "resistance". On success the two positions are different columns. |
| Analysis.SelectRenamed | backend/app/services/analysis.py:114-116 | After renaming the chosen columns, selection succeeds exactly when "time" and "resistance" each name exactly one column, and then returns those columns. It fails on "time" exactly when "time" is missing or repeated; otherwise it fails on "resistance" exactly when that one is. |
| Analysis.FirstHeaderContainingSpec | backend/app/services/analysis.py:109-110 | The chosen column is the first whose lower-cased header contains the word. There is none exactly when no header contains it. |
| Analysis.MissingColumnsRule | backend/app/services/analysis.py:109-112 | The 400 error "CSV must contain Time and Resistance columns" is raised exactly when no header mentions "time" or none mentions "resistance". |
| Analysis.ResolveFirstMatches | backend/app/services/analysis.py:109-116 | Suppose header names are distinct and no other header is literally "time" or "resistance". Then loading reads the first time-like and the first resistance-like column. |
| Analysis.SharedColumnFails | backend/app/services/analysis.py:109-115 | One header matching both words is renamed to "resistance". Unless another column is literally "time", selecting "time" then fails. |
| Analysis.TimeDivisorRule | backend/app/services/analysis.py:115 | Times are divided by 1000 exactly when some raw time is strictly above 1000, and by 1 otherwise. |
| Analysis.LoadGsr | backend/app/services/analysis.py:107-118 | Column errors pass through unchanged. On success the rows are sorted ascending by `time_sec`. They are a permutation of the chosen two columns, with times rescaled. |
| Stats.DiffsAt | backend/app/services/analysis.py:128 | Entry `i` of the successive differences is the step from time `i` to time `i + 1`. |
| Stats.DiffsTelescope | backend/app/services/analysis.py:128 | The successive differences add up to the last time minus the first. |
| Analysis.MeanInterval | backend/app/services/analysis.py:128-131 | The mean successive difference is the time spanned over the number of intervals. |
| Analysis.InferSamplingRate | backend/app/services/analysis.py:127-134 | The rate is 0 for fewer than two rows and exactly when the mean interval is zero. Otherwise it times the mean interval is 1. |
| Analysis.SamplingRateRule | backend/app/services/analysis.py:127-134 | The rate is 0 for fewer than two rows or when the mean interval is zero. Otherwise it is the number of intervals over the time spanned, i.e. one over the mean step. It is never negative on sorted times. |
| Analysis.GsrMetadata | backend/app/services/analysis.py:38-41 | An empty table has no metadata. Otherwise the duration is the last time minus the first. The sampling rate is the one `_infer_sampling_rate` gives for the time column (`Analysis.InferSamplingRate`). On a sorted signal the duration and the rate are never negative. |
| Analysis.KeepSummary | backend/app/services/analysis.py:100 | A summary is kept exactly when it is present, non-empty and not "NONE" in any letter case, and is then unchanged. |
| Analysis.ProcessEvent | backend/app/services/analysis.py:85-102 | `time_sec` is copied from the event. A missing id or rule becomes the fresh id or "unknown". The numeric fields are copied. An empty window gives neither excerpt nor summary. A non-empty window gives the words joined by spaces as excerpt, unless that text is empty. The summary is the summarizer's reply on that text, kept by the "NONE" rule, when summarising is enabled and the window is non-empty, and absent otherwise. |
| Analysis.SummarizerNotConsulted | backend/app/services/analysis.py:88-92 | With summarising disabled or an empty window, the summarizer is not called: any two summarizers give the same payload. |
| Analysis.SummariesForEvents | backend/app/services/analysis.py:76-104 | Exactly one payload per event, in the events' order, each that event's payload. |
| Analysis.DetectedEventPayloads | backend/app/services/analysis.py:94-101 | Payloads of detected events keep the event's id, time, rule and score. The fallback id and rule are not used. |
| Summary.FirstLine | backend/app/services/summary.py:44 | `splitlines()[0]`: a prefix of the text with no line break, ending at the first line break or at the end. |
| Summary.TruncateWords | backend/app/services/summary.py:45-46 | Truncation keeps the first `min(20, n)` words. Splitting the result gives back exactly those words. |
| Summary.Fallback | backend/app/services/summary.py:41-46 | An empty (stripped) reply gives None. Otherwise the result is None exactly when the first line, stripped of whitespace and double quotes, has no words. |
| Summary.FallbackWords | backend/app/services/summary.py:44-46 | A fallback summary has at most twenty words. They are the leading words of the reply's cleaned first line, as many as fit. |
| Summary.Summarize | backend/app/services/summary.py:13-46 | Fewer than six words after stripping give None. Otherwise a decoded reply yields its `summary` entry, and a reply that does not decode goes through the fallback. |
| Summary.GateIgnoresReply | backend/app/services/summary.py:14-16 | Below the six-word gate the reply plays no part, because no request is made. |
| Summary.ShortExcerptSkipped | backend/app/services/summary.py:14-16 | An excerpt joined from fewer than six words never reaches the model. |
| Storage.SuffixStart | backend/app/services/storage.py:7 | The split point is the last dot, provided it is neither the first nor the last character; there is none exactly when the name has no dot, ends in a dot, or has its only dot first. |
| Storage.StemSuffixSplit | backend/app/services/storage.py:7-10 | The stem followed by the suffix is the final path component. The suffix is empty exactly when the name has no such dot; otherwise it is a dot followed by at least one character with no other dot. |
| Storage.CollisionNameInjective | backend/app/services/storage.py:13 | Different counters give different `stem-k+suffix` names. |
| Storage.LeastFree | backend/app/services/storage.py:11-17 | The search returns the least `k >= 1` whose name is free; every smaller counter's name is taken. It terminates because the names are distinct and the directory is finite. |
| Storage.ChooseTarget | backend/app/services/storage.py:6-17 | The target is never an existing name. A free upload name is used unchanged. Otherwise the target is `stem-k+suffix` for the least free `k >= 1`. |
| Storage.DefaultNames | backend/app/services/storage.py:7-13 | Without a file name the first choice is "upload", and the alternatives are "upload-k.bin". |
| Text.WordsOfJoin | backend/app/services/summary.py:45-46 | Splitting a space-joined list of words gives the list back. |
| Text.StripByIsSlice | backend/app/services/summary.py:44 | `strip` keeps a slice of its input and cuts off only dropped characters on either side. |

## Left out

- Floating point. All numbers are exact reals. NaN, infinities and rounding are not modelled; neither is the float conversion of the CSV cells.
- The numeric libraries:
  - `np.gradient`, `np.std` (its square root), the ruptures PELT fit and `read_csv` are inputs or constraints, not computations;
  - `np.gradient` raises for fewer than two readings, so the source fails before the empty-readings guard of `detect_events`; the model keeps that guard reachable;
  - audio metadata from soundfile is not modelled.
- Stats.Median: only promised to lie between the smallest and the largest reading, because the exact median only feeds `delta_kohm`. `Events.MakeEvent` states `delta_kohm` relative to whatever baseline it is given.
- Sorting.SortBy: promises order and the same records, but not the relative order of equal times. The pandas default sort is not stable either.
- The HTTP request to the language model and JSON decoding. The reply is given already classified. A reply that decodes as JSON but not as an object would make `parsed.get` raise in the source; the model has no such reply. A `summary` entry that is not a string is not modelled either.
- The `uuid4` fallback id and the ASR placeholder. They are a parameter and an input (the word list).
- `asyncio.gather`. Per-event processing is a plain map over the events, in order.
- Case mapping is ASCII only. Python's `lower`/`upper` map all of Unicode; the model changes only the letters A–Z and a–z, which is all the needles "time", "resistance" and "NONE" are made of. How other characters map under Unicode is not modelled.
- Path handling. The final component is the text after the last '/', ignoring trailing '/'. Normalisation of "." and ".." parts, and names that are absolute paths, are not modelled. The stem and suffix rule is the one pathlib uses up to Python 3.13.
- File I/O in `save_temp_upload` (reading the upload, writing the bytes), and any race between the existence check and the write.
- The frontend's time-unit inference is not modelled.
- HTTP routing, settings, schemas, hardware probing and the frontend (column scoring, interpolation, gauge, playback sync). Their source is not part of this model.
- `run_analysis` orchestration is modelled piecewise: loading, metadata, detection and payloads are separate members rather than one composed function.

=== FILE: analysis.dfy ===
/** The pure rules of backend/app/services/analysis.py: choosing the time and
    resistance columns of the uploaded GSR table, rescaling milliseconds to
    seconds, sorting, the sampling-rate and duration metadata, and the
    per-event payload built around the transcript excerpt and its summary.

    The parsed CSV is an input (`Table`, every cell already a number); the
    summarizer is a function parameter standing for the local LLM service. */
module Analysis {
  import opened Results
  import opened Text
  import opened Sorting
  import opened Stats
  import opened Transcript
  import opened Events

  // ---------------------------------------------------------------------------
  // loading the GSR table

  /** A parsed CSV: the header row and the numeric data rows. */
  datatype Table = Table(headers: seq<string>, rows: seq<seq<real>>)

  /** Every row has one cell per header, as in a data frame. */
  ghost predicate Rectangular(t: Table) {
    forall r :: 0 <= r < |t.rows| ==> |t.rows[r]| == |t.headers|
  }

  /** One row of the loaded signal: the two columns `time_sec` and
      `resistance_kohm`. */
  datatype GsrRow = GsrRow(timeSec: real, resistanceKohm: real)

  function TimeOf(row: GsrRow): real {
    row.timeSec
  }

  /** Why loading fails: an HTTP error raised on purpose, or the exception
      pandas raises when a renamed column cannot be selected as one column. */
  datatype LoadError =
    | HttpError(status: int, detail: string)
    | ColumnSelectionError(column: string)

  const MissingColumnsError: LoadError := HttpError(400, "CSV must contain Time and Resistance columns")

  /** The position of the first header whose lower-cased text contains
      `needle`, if any. */
  function FirstHeaderContaining(headers: seq<string>, needle: string): (r: Option<nat>)
    ensures r.Some? ==> r.value < |headers|
    decreases |headers|
  {
    if headers == [] then None
    else if Contains(Lower(headers[0]), needle) then Some(0)
    else
      match FirstHeaderContaining(headers[1..], needle)
      case None => None
      case Some(i) => Some(i + 1)
  }

  /** The chosen header is the first whose lower-cased name contains
      `needle`, and there is none exactly when no header contains it. */
  lemma {:induction false} FirstHeaderContainingSpec(headers: seq<string>, needle: string)
    ensures var r := FirstHeaderContaining(headers, needle);
            && (r.Some? ==> Contains(Lower(headers[r.value]), needle))
            && (r.Some? ==> forall j :: 0 <= j < r.value ==> !Contains(Lower(headers[j]), needle))
            && (r.None? <==> forall j :: 0 <= j < |headers| ==> !Contains(Lower(headers[j]), needle))
    decreases |headers|
  {
    if headers != [] && !Contains(Lower(headers[0]), needle) {
      FirstHeaderContainingSpec(headers[1..], needle);
      assert forall j :: 1 <= j < |headers| ==> headers[j] == headers[1..][j - 1];
    }
  }

  /** Renaming the chosen columns to "time" and "resistance": renaming is by
      name, every column with a chosen name is renamed, and when both chosen
      names are the same the resistance renaming wins. */
  function RenameColumns(headers: seq<string>, timeName: string, resistanceName: string): (renamed: seq<string>)
    ensures |renamed| == |headers|
  {
    seq(|headers|, i requires 0 <= i < |headers| =>
      if headers[i] == resistanceName then "resistance"
      else if headers[i] == timeName then "time"
      else headers[i])
  }

  /** The position of `name` when it names exactly one column. */
  function UniqueColumn(headers: seq<string>, name: string): (r: Option<nat>)
    ensures r.Some? ==> r.value < |headers| && headers[r.value] == name
    ensures r.Some? ==> forall j :: 0 <= j < |headers| && j != r.value ==> headers[j] != name
    ensures r.None? ==> forall i :: 0 <= i < |headers| && headers[i] == name ==>
                          exists j :: 0 <= j < |headers| && j != i && headers[j] == name
    decreases |headers|
  {
    if headers == [] then None
    else
      var rest := UniqueColumn(headers[1..], name);
      if headers[0] == name then
        if name in headers[1..] then None else Some(0)
      else if rest.Some? then Some(rest.value + 1)
      else
        assert forall i :: 1 <= i < |headers| ==> headers[i] == headers[1..][i - 1];
        None
  }

  /** Exactly one position of `hs` holds `name`, so selecting `name` gives
      one column. */
  ghost predicate Unique(hs: seq<string>, name: string) {
    exists i :: 0 <= i < |hs| && hs[i] == name && forall j :: 0 <= j < |hs| && j != i ==> hs[j] != name
  }

  /** The lookup finds a position exactly when the name is held once. */
  lemma UniqueColumnFound(hs: seq<string>, name: string)
    ensures UniqueColumn(hs, name).Some? <==> Unique(hs, name)
  {
  }

  /** The positions of the columns named "time" and "resistance" after the
      columns at `tc` and `rc` are renamed to them, or the selection error. */
  function SelectRenamed(headers: seq<string>, tc: nat, rc: nat): (r: Result<(nat, nat), LoadError>)
    requires tc < |headers| && rc < |headers|
    ensures r.Ok? ==> r.value.0 < |headers| && r.value.1 < |headers|
    ensures r.Ok? ==> var renamed := RenameColumns(headers, headers[tc], headers[rc]);
                      renamed[r.value.0] == "time" && renamed[r.value.1] == "resistance"
    ensures r.Err? ==> r.error == ColumnSelectionError("time") || r.error == ColumnSelectionError("resistance")
    ensures var renamed := RenameColumns(headers, headers[tc], headers[rc]);
            r.Ok? <==> Unique(renamed, "time") && Unique(renamed, "resistance")
    ensures var renamed := RenameColumns(headers, headers[tc], headers[rc]);
            r == Err(ColumnSelectionError("time")) <==> !Unique(renamed, "time")
    ensures var renamed := RenameColumns(headers, headers[tc], headers[rc]);
            r == Err(ColumnSelectionError("resistance")) <==> Unique(renamed, "time") && !Unique(renamed, "resistance")
  {
    var renamed := RenameColumns(headers, headers[tc], headers[rc]);
    UniqueColumnFound(renamed, "time");
    UniqueColumnFound(renamed, "resistance");
    match (UniqueColumn(renamed, "time"), UniqueColumn(renamed, "resistance"))
    case (None, _) => Err(ColumnSelectionError("time"))
    case (_, None) => Err(ColumnSelectionError("resistance"))
    case (Some(t), Some(r)) => Ok((t, r))
  }

  /** The positions of the time and resistance columns `_load_gsr` ends up
      reading, or the error it raises on the way: the HTTP 400 error exactly
      when no header mentions time or none mentions resistance, otherwise a
      selection error or two different columns. */
  function ResolveColumns(headers: seq<string>): (r: Result<(nat, nat), LoadError>)
    ensures r.Ok? ==> r.value.0 < |headers| && r.value.1 < |headers|
    ensures r.Ok? ==> r.value.0 != r.value.1
    ensures r == Err(MissingColumnsError) <==>
              || (forall j :: 0 <= j < |headers| ==> !Contains(Lower(headers[j]), "time"))
              || (forall j :: 0 <= j < |headers| ==> !Contains(Lower(headers[j]), "resistance"))
    ensures r.Err? ==> || r.error == MissingColumnsError
                       || r.error == ColumnSelectionError("time")
                       || r.error == ColumnSelectionError("resistance")
  {
    var timeIx := FirstHeaderContaining(headers, "time");
    var resistanceIx := FirstHeaderContaining(headers, "resistance");
    FirstHeaderContainingSpec(headers, "time");
    FirstHeaderContainingSpec(headers, "resistance");
    if timeIx.None? || resistanceIx.None? then Err(MissingColumnsError)
    else SelectRenamed(headers, timeIx.value, resistanceIx.value)
  }

  /** The largest element of a non-empty sequence. */
  function MaxOf(s: seq<real>): (m: real)
    requires |s| > 0
    ensures forall i :: 0 <= i < |s| ==> s[i] <= m
    ensures exists i :: 0 <= i < |s| && s[i] == m
    decreases |s|
  {
    if |s| == 1 then s[0]
    else
      var m := MaxOf(s[1..]);
      assert forall i :: 1 <= i < |s| ==> s[i] == s[1..][i - 1];
      if s[0] >= m then s[0] else m
  }

  /** The raw time threshold above which times are taken as milliseconds. */
  const MillisecondThreshold: real := 1000.0

  /** Times are divided by 1000 when the largest exceeds 1000 (taken to be
      milliseconds) and left as they are otherwise; an empty column has no
      maximum above the threshold (the table library's maximum of nothing
      compares false). */
  function TimeDivisor(times: seq<real>): real {
    if |times| > 0 && MaxOf(times) > MillisecondThreshold then 1000.0 else 1.0
  }

  /** Times are divided by 1000 exactly when some raw time exceeds 1000
      (strictly), and left unchanged otherwise. */
  lemma TimeDivisorRule(times: seq<real>)
    ensures TimeDivisor(times) == 1000.0 <==> exists i :: 0 <= i < |times| && times[i] > MillisecondThreshold
    ensures TimeDivisor(times) == 1000.0 || TimeDivisor(times) == 1.0
  {
    if exists i :: 0 <= i < |times| && times[i] > MillisecondThreshold {
      var i :| 0 <= i < |times| && times[i] > MillisecondThreshold;
      assert times[i] <= MaxOf(times);
    }
  }

  function Column(t: Table, c: nat): (col: seq<real>)
    requires Rectangular(t) && c < |t.headers|
    ensures |col| == |t.rows|
  {
    seq(|t.rows|, r requires 0 <= r < |t.rows| => t.rows[r][c])
  }

  /** The two chosen columns, times rescaled, in the table's row order. */
  function ScaledRows(t: Table, timeCol: nat, resistanceCol: nat): (rows: seq<GsrRow>)
    requires Rectangular(t) && timeCol < |t.headers| && resistanceCol < |t.headers|
    ensures |rows| == |t.rows|
  {
    var d := TimeDivisor(Column(t, timeCol));
    seq(|t.rows|, r requires 0 <= r < |t.rows| => GsrRow(t.rows[r][timeCol] / d, t.rows[r][resistanceCol]))
  }

  /** `_load_gsr` on a parsed table. */
  function LoadGsr(t: Table): (r: Result<seq<GsrRow>, LoadError>)
    requires Rectangular(t)
    ensures ResolveColumns(t.headers).Err? ==> r == Err(ResolveColumns(t.headers).error)
    ensures r.Err? <==> ResolveColumns(t.headers).Err?
    ensures r.Ok? ==> SortedBy(r.value, TimeOf)
    ensures r.Ok? ==> var (tc, rc) := ResolveColumns(t.headers).value;
                      multiset(r.value) == multiset(ScaledRows(t, tc, rc))
  {
    match ResolveColumns(t.headers)
    case Err(e) => Err(e)
    case Ok((tc, rc)) => Ok(SortBy(ScaledRows(t, tc, rc), TimeOf))
  }

  /** The missing-column error is raised exactly when no header mentions
      "time" or none mentions "resistance" (case-insensitively). */
  lemma MissingColumnsRule(headers: seq<string>)
    ensures ResolveColumns(headers) == Err(MissingColumnsError)
            <==> (forall j :: 0 <= j < |headers| ==> !Contains(Lower(headers[j]), "time"))
                 || (forall j :: 0 <= j < |headers| ==> !Contains(Lower(headers[j]), "resistance"))
  {
    FirstHeaderContainingSpec(headers, "time");
    FirstHeaderContainingSpec(headers, "resistance");
  }

  /** Distinct names, none of them literally "time" or "resistance" except
      possibly the chosen ones: the renamed columns are selected where they
      stand. */
  lemma SelectDistinct(headers: seq<string>, tc: nat, rc: nat)
    requires tc < |headers| && rc < |headers| && tc != rc
    requires forall i, j :: 0 <= i < j < |headers| ==> headers[i] != headers[j]
    requires forall j :: 0 <= j < |headers| && j != tc ==> headers[j] != "time"
    requires forall j :: 0 <= j < |headers| && j != rc ==> headers[j] != "resistance"
    ensures SelectRenamed(headers, tc, rc) == Ok((tc, rc))
  {
    var renamed := RenameColumns(headers, headers[tc], headers[rc]);
    forall j | 0 <= j < |renamed| && j != tc ensures renamed[j] != "time" {
      assert headers[j] != headers[tc];
    }
    forall j | 0 <= j < |renamed| && j != rc ensures renamed[j] != "resistance" {
      assert headers[j] != headers[rc];
    }
    UniqueAt(renamed, "time", tc);
    UniqueAt(renamed, "resistance", rc);
  }

  /** A name standing at exactly one position is found there. */
  lemma UniqueAt(headers: seq<string>, name: string, i: nat)
    requires i < |headers| && headers[i] == name
    requires forall j :: 0 <= j < |headers| && j != i ==> headers[j] != name
    ensures UniqueColumn(headers, name) == Some(i)
  {
  }

  /** With distinct header names, none of them literally "time" or
      "resistance" unless it is the chosen column, loading reads the first
      time-like column and the first resistance-like column. */
  lemma ResolveFirstMatches(headers: seq<string>, tc: nat, rc: nat)
    requires forall i, j :: 0 <= i < j < |headers| ==> headers[i] != headers[j]
    requires FirstHeaderContaining(headers, "time") == Some(tc)
    requires FirstHeaderContaining(headers, "resistance") == Some(rc)
    requires tc != rc
    requires forall j :: 0 <= j < |headers| && j != tc ==> headers[j] != "time"
    requires forall j :: 0 <= j < |headers| && j != rc ==> headers[j] != "resistance"
    ensures ResolveColumns(headers) == Ok((tc, rc))
  {
    assert ResolveColumns(headers) == SelectRenamed(headers, tc, rc);
    SelectDistinct(headers, tc, rc);
  }

  /** A header chosen for both columns is renamed to "resistance"; when no
      other column is literally "time", selecting "time" fails. */
  lemma SelectShared(headers: seq<string>, c: nat)
    requires c < |headers|
    requires forall j :: 0 <= j < |headers| ==> headers[j] != "time"
    ensures SelectRenamed(headers, c, c) == Err(ColumnSelectionError("time"))
  {
    var renamed := RenameColumns(headers, headers[c], headers[c]);
    assert forall j :: 0 <= j < |renamed| ==> renamed[j] != "time";
  }

  /** A header containing both words is chosen for both columns, and loading
      fails when no column is literally called "time". */
  lemma SharedColumnFails(headers: seq<string>, c: nat)
    requires FirstHeaderContaining(headers, "time") == Some(c)
    requires FirstHeaderContaining(headers, "resistance") == Some(c)
    requires forall j :: 0 <= j < |headers| ==> headers[j] != "time"
    ensures ResolveColumns(headers) == Err(ColumnSelectionError("time"))
  {
    assert ResolveColumns(headers) == SelectRenamed(headers, c, c);
    SelectShared(headers, c);
  }

  // ---------------------------------------------------------------------------
  // metadata

  /** `_infer_sampling_rate` on the `time_sec` column: zero when there is no
      interval or the mean interval is zero, otherwise the reciprocal of the
      mean interval. */
  function InferSamplingRate(ts: seq<real>): (rate: real)
    ensures |ts| < 2 ==> rate == 0.0
    ensures |ts| >= 2 ==> (rate == 0.0 <==> Mean(Diffs(ts)) == 0.0)
    ensures rate != 0.0 ==> |ts| >= 2 && rate * Mean(Diffs(ts)) == 1.0
  {
    var diffs := Diffs(ts);
    if |diffs| == 0 then 0.0
    else
      var avg := Mean(diffs);
      if avg == 0.0 then 0.0 else Reciprocal(avg)
  }

  /** The sampling rate is zero for fewer than two samples or when the first
      and last time coincide; otherwise it is the number of intervals over the
      time covered. On sorted times it is never negative. */
  lemma SamplingRateRule(ts: seq<real>)
    ensures |ts| < 2 ==> InferSamplingRate(ts) == 0.0
    ensures |ts| >= 2 && ts[|ts| - 1] == ts[0] ==> InferSamplingRate(ts) == 0.0
    ensures |ts| >= 2 && ts[|ts| - 1] != ts[0] ==>
              InferSamplingRate(ts) == (|ts| - 1) as real / (ts[|ts| - 1] - ts[0])
    ensures |ts| >= 2 && ts[0] <= ts[|ts| - 1] ==> InferSamplingRate(ts) >= 0.0
  {
    if |ts| >= 2 {
      var rate := InferSamplingRate(ts);
      var n := (|ts| - 1) as real;
      var span := ts[|ts| - 1] - ts[0];
      MeanInterval(ts);
      assert Mean(Diffs(ts)) == span / n;
      if span != 0.0 {
        assert span / n != 0.0;
        QuotientOfMean(rate, span, n);
      } else {
        assert span / n == 0.0;
        assert rate == 0.0;
      }
    }
  }

  /** The mean interval is the time covered over the number of intervals. */
  lemma MeanInterval(ts: seq<real>)
    requires |ts| >= 2
    ensures Mean(Diffs(ts)) == (ts[|ts| - 1] - ts[0]) / (|ts| - 1) as real
  {
    var d := Diffs(ts);
    DiffsTelescope(ts);
    var n := |d| as real;
    var span := ts[|ts| - 1] - ts[0];
    assert n == (|ts| - 1) as real;
    assert Sum(d) == span;
    calc {
      Mean(d);
      Sum(d) / n;
      span / n;
    }
  }

  /** A rate whose product with `span / n` is 1 is `n / span`, and it is
      positive when `span` is. */
  lemma QuotientOfMean(rate: real, span: real, n: real)
    requires n > 0.0 && span != 0.0
    requires rate * (span / n) == 1.0
    ensures rate == n / span
    ensures span > 0.0 ==> rate > 0.0
  {
    assert rate * span == n;
  }

  datatype SignalMetadata = SignalMetadata(samplingRateHz: real, durationSec: real)

  function Times(rows: seq<GsrRow>): (ts: seq<real>)
    ensures |ts| == |rows|
    ensures forall i :: 0 <= i < |rows| ==> ts[i] == rows[i].timeSec
  {
    seq(|rows|, i requires 0 <= i < |rows| => rows[i].timeSec)
  }

  /** The GSR metadata `run_analysis` reports; None where pandas raises on an
      empty table (`iloc[-1]`). The duration is the last time minus the first
      and, like the rate, is never negative on a sorted signal. */
  function GsrMetadata(rows: seq<GsrRow>): (m: Option<SignalMetadata>)
    ensures m.None? <==> rows == []
    ensures m.Some? ==> m.value.durationSec == rows[|rows| - 1].timeSec - rows[0].timeSec
    ensures m.Some? ==> m.value.samplingRateHz == InferSamplingRate(Times(rows))
    ensures m.Some? && SortedBy(rows, TimeOf) ==> m.value.durationSec >= 0.0 && m.value.samplingRateHz >= 0.0
  {
    if rows == [] then None
    else
      var ts := Times(rows);
      SamplingRateRule(ts);
      assert SortedBy(rows, TimeOf) && |rows| > 1 ==> TimeOf(rows[0]) <= TimeOf(rows[|rows| - 1]);
      Some(SignalMetadata(InferSamplingRate(ts), rows[|rows| - 1].timeSec - rows[0].timeSec))
  }

  // ---------------------------------------------------------------------------
  // per-event payloads

  /** An event record as `process_event` reads it: a mapping in which every
      key but `time_sec` may be missing. A key present with the value None is
      treated here as missing, although the lookup with a fallback would
      return None for it; the detected events never hold such a key. */
  datatype EventFields = EventFields(
    eventId: Option<string>,
    timeSec: real,
    rule: Option<string>,
    deltaKohm: Option<real>,
    deltaZ: Option<real>,
    score: Option<real>)

  /** The mapping `detect_events` produces for an event. */
  function FieldsOf(e: Event): EventFields {
    EventFields(Some(e.eventId), e.timeSec, Some(e.rule), Some(e.deltaKohm), e.deltaZ, Some(e.score))
  }

  datatype EventPayload = EventPayload(
    eventId: string,
    timeSec: real,
    rule: string,
    deltaKohm: Option<real>,
    deltaZ: Option<real>,
    transcriptExcerpt: Option<string>,
    summary: Option<string>,
    score: Option<real>)

  const UnknownRule: string := "unknown"

  function Texts(words: seq<TranscribedWord>): (texts: seq<string>)
    ensures |texts| == |words|
  {
    seq(|words|, i requires 0 <= i < |words| => words[i].text)
  }

  /** A summary is reported only when it is non-empty and not the model's
      "NONE" marker in any letter case. */
  function KeepSummary(summary: Option<string>): (r: Option<string>)
    ensures r.Some? <==> summary.Some? && summary.value != [] && Upper(summary.value) != "NONE"
    ensures r.Some? ==> r == summary
  {
    if summary.Some? && summary.value != [] && Upper(summary.value) != "NONE" then summary else None
  }

  /** `process_event`: the payload for one event. The summarizer is consulted
      only when the event's transcript window holds at least one word and
      summarising is enabled; `freshId` stands for the random id used when the
      event has none. */
  function ProcessEvent(
    event: EventFields, words: seq<TranscribedWord>, preWindow: real, postWindow: real,
    summarizerEnabled: bool, summarize: string -> Option<string>, freshId: string
  ): (p: EventPayload)
    ensures p.timeSec == event.timeSec
    ensures p.eventId == (if event.eventId.Some? then event.eventId.value else freshId)
    ensures p.rule == (if event.rule.Some? then event.rule.value else UnknownRule)
    ensures p.deltaKohm == event.deltaKohm && p.deltaZ == event.deltaZ && p.score == event.score
    ensures AlignTranscriptDefault(words, event.timeSec, preWindow, postWindow) == [] ==>
              p.transcriptExcerpt == None && p.summary == None
    ensures p.transcriptExcerpt.Some? ==>
              p.transcriptExcerpt.value != []
              && p.transcriptExcerpt.value == Join(Texts(AlignTranscriptDefault(words, event.timeSec, preWindow, postWindow)))
    ensures p.summary.Some? ==>
              var window := AlignTranscriptDefault(words, event.timeSec, preWindow, postWindow);
              && summarizerEnabled
              && window != []
              && p.summary == summarize(Join(Texts(window)))
              && p.summary.value != [] && Upper(p.summary.value) != "NONE"
    ensures var window := AlignTranscriptDefault(words, event.timeSec, preWindow, postWindow);
            window != [] ==>
              p.transcriptExcerpt == (if Join(Texts(window)) == [] then None else Some(Join(Texts(window))))
    ensures var window := AlignTranscriptDefault(words, event.timeSec, preWindow, postWindow);
            p.summary == KeepSummary(if window != [] && summarizerEnabled then summarize(Join(Texts(window))) else None)
  {
    var window := AlignTranscriptDefault(words, event.timeSec, preWindow, postWindow);
    var excerpt := if window != [] then Join(Texts(window)) else "";
    var summary := if window != [] && summarizerEnabled then summarize(excerpt) else None;
    EventPayload(
      event.eventId.GetOr(freshId),
      event.timeSec,
      event.rule.GetOr(UnknownRule),
      event.deltaKohm,
      event.deltaZ,
      if excerpt == [] then None else Some(excerpt),
      KeepSummary(summary),
      event.score)
  }

  /** When the window is empty or summarising is disabled the summarizer is
      not consulted: any two summarizers give the same payload. */
  lemma SummarizerNotConsulted(
    event: EventFields, words: seq<TranscribedWord>, preWindow: real, postWindow: real,
    summarizerEnabled: bool, s1: string -> Option<string>, s2: string -> Option<string>, freshId: string)
    requires !summarizerEnabled || AlignTranscriptDefault(words, event.timeSec, preWindow, postWindow) == []
    ensures ProcessEvent(event, words, preWindow, postWindow, summarizerEnabled, s1, freshId)
            == ProcessEvent(event, words, preWindow, postWindow, summarizerEnabled, s2, freshId)
  {
  }

  /** `_summaries_for_events`: one payload per event, in the events' order. */
  function SummariesForEvents(
    events: seq<EventFields>, words: seq<TranscribedWord>, preWindow: real, postWindow: real,
    summarizerEnabled: bool, summarize: string -> Option<string>, freshIds: seq<string>
  ): (payloads: seq<EventPayload>)
    requires |freshIds| == |events|
    ensures |payloads| == |events|
    ensures forall i :: 0 <= i < |events| ==> payloads[i].timeSec == events[i].timeSec
    ensures forall i :: 0 <= i < |events| ==>
              payloads[i] == ProcessEvent(events[i], words, preWindow, postWindow, summarizerEnabled, summarize, freshIds[i])
  {
    seq(|events|, i requires 0 <= i < |events| =>
      ProcessEvent(events[i], words, preWindow, postWindow, summarizerEnabled, summarize, freshIds[i]))
  }

  /** Payloads of detected events keep the event's id, time, rule and score;
      the fallback id and rule are never used for them. */
  lemma DetectedEventPayloads(
    events: seq<Event>, words: seq<TranscribedWord>, preWindow: real, postWindow: real,
    summarizerEnabled: bool, summarize: string -> Option<string>, freshIds: seq<string>)
    requires |freshIds| == |events|
    ensures var fields := seq(|events|, i requires 0 <= i < |events| => FieldsOf(events[i]));
            var payloads := SummariesForEvents(fields, words, preWindow, postWindow, summarizerEnabled, summarize, freshIds);
            forall i :: 0 <= i < |events| ==>
              && payloads[i].eventId == events[i].eventId
              && payloads[i].timeSec == events[i].timeSec
              && payloads[i].rule == events[i].rule
              && payloads[i].score == Some(events[i].score)
  {
  }
}

=== FILE: events.dfy ===
/** Event detection of backend/app/services/events.py, after the numeric
    detectors: ruleset lookup, conversion of change-point breakpoints to sample
    indices, the greedy minimum-gap pass over the sorted candidate indices, and
    assembly of one event record per kept index.

    The z-scored derivative (`drz`) and the PELT breakpoints are inputs here;
    the square root behind `np.std` is an input too (`std`, constrained by
    `IsStdOf`). */
module Events {
  import opened Results
  import opened Sequences
  import opened Text
  import opened Stats

  datatype EventRule = EventRule(
    name: string,
    derivativeZ: real,
    minGapSec: real,
    changepointPenalty: real)

  const DefaultRule: EventRule := EventRule("default", 2.5, 5.0, 8.0)
  const SensitiveRule: EventRule := EventRule("sensitive", 1.8, 3.0, 6.0)
  const StrictRule: EventRule := EventRule("strict", 3.2, 7.5, 10.0)

  /** `DEFAULT_RULESET`, keyed by rule name. */
  const DefaultRuleset: map<string, EventRule> :=
    map["default" := DefaultRule, "sensitive" := SensitiveRule, "strict" := StrictRule]

  /** The rule a ruleset name selects: a known name gets the rule filed under
      it, which carries that same name; any other name gets the default rule. */
  function RuleFor(ruleset: string): (rule: EventRule)
    ensures ruleset in DefaultRuleset ==> rule == DefaultRuleset[ruleset] && rule.name == ruleset
    ensures ruleset !in DefaultRuleset ==> rule == DefaultRule && rule.name == "default"
    ensures rule.minGapSec > 0.0 && rule.derivativeZ > 0.0 && rule.changepointPenalty > 0.0
  {
    if ruleset in DefaultRuleset then DefaultRuleset[ruleset] else DefaultRuleset["default"]
  }

  // ---------------------------------------------------------------------------
  // sampling rate and z-scores

  /** The positions of the positive entries of `d`. */
  ghost function PositivePositions(d: seq<real>): set<int> {
    set i | 0 <= i < |d| && d[i] > 0.0
  }

  /** The positive entries of `d`: all positive, one for every positive
      position of `d` (`PositiveOnlyInOrder` adds that they keep their order). */
  function PositiveOnly(d: seq<real>): (valid: seq<real>)
    ensures forall k :: 0 <= k < |valid| ==> valid[k] > 0.0
    ensures |valid| == |PositivePositions(d)|
    decreases |d|
  {
    if d == [] then
      assert PositivePositions(d) == {};
      []
    else
      var p := d[..|d| - 1];
      var x := d[|d| - 1];
      PositivePositionsLast(d);
      PositiveOnly(p) + (if x > 0.0 then [x] else [])
  }

  /** The positive entries are drawn from `d` keeping their order. */
  lemma {:induction false} PositiveOnlyInOrder(d: seq<real>)
    ensures IsSubsequence(PositiveOnly(d), d)
    decreases |d|
  {
    if d != [] {
      var p := d[..|d| - 1];
      var x := d[|d| - 1];
      PositiveOnlyInOrder(p);
      assert d == p + [x];
      SubsequenceAppend(PositiveOnly(p), p, x, x > 0.0);
    }
  }

  /** The positive positions of `d` are those of `d` without its last entry,
      plus the last position when that entry is positive. */
  lemma PositivePositionsLast(d: seq<real>)
    requires d != []
    ensures var n := |d| - 1;
            && n !in PositivePositions(d[..n])
            && PositivePositions(d) == PositivePositions(d[..n]) + (if d[n] > 0.0 then {n} else {})
  {
  }

  /** The successive differences of `ts` that are positive, one for every
      step up. */
  function PositiveIntervals(ts: seq<real>): (gaps: seq<real>)
    ensures forall k :: 0 <= k < |gaps| ==> gaps[k] > 0.0
    ensures |gaps| == |PositivePositions(Diffs(ts))|
  {
    PositiveOnly(Diffs(ts))
  }

  /** The positive intervals are successive differences of `ts`, in order;
      with the count above this pins them down. */
  lemma PositiveIntervalsInOrder(ts: seq<real>)
    ensures IsSubsequence(PositiveIntervals(ts), Diffs(ts))
  {
    PositiveOnlyInOrder(Diffs(ts));
  }

  /** There are no positive intervals exactly when no step goes up. */
  lemma NoPositiveIntervals(ts: seq<real>)
    ensures PositiveIntervals(ts) == [] <==> forall i :: 1 <= i < |ts| ==> ts[i] - ts[i - 1] <= 0.0
  {
    var d := Diffs(ts);
    DiffsAt(ts);
    if exists i :: 1 <= i < |ts| && ts[i] - ts[i - 1] > 0.0 {
      var i :| 1 <= i < |ts| && ts[i] - ts[i - 1] > 0.0;
      assert d[i - 1] > 0.0;
      assert i - 1 in PositivePositions(d);
    } else {
      forall j | 0 <= j < |d| ensures d[j] <= 0.0 {
        assert ts[j + 1] - ts[(j + 1) - 1] <= 0.0;
      }
      assert PositivePositions(d) == {};
    }
  }

  /** `_estimate_rate`: zero when no interval is positive, otherwise the
      reciprocal of the mean positive interval, hence positive. */
  function EstimateRate(ts: seq<real>): (rate: real)
    ensures rate >= 0.0
    ensures rate == 0.0 <==> PositiveIntervals(ts) == []
    ensures PositiveIntervals(ts) != [] ==> rate * Mean(PositiveIntervals(ts)) == 1.0
  {
    var valid := PositiveIntervals(ts);
    if valid == [] then 0.0 else MeanReciprocal(valid)
  }

  /** One over the mean of positive values, which is positive. */
  function MeanReciprocal(valid: seq<real>): (r: real)
    requires valid != []
    requires forall k :: 0 <= k < |valid| ==> valid[k] > 0.0
    ensures r > 0.0 && r * Mean(valid) == 1.0
  {
    SumPositive(valid);
    PositiveQuotient(Sum(valid), |valid| as real);
    Reciprocal(Mean(valid))
  }

  /** The rate is zero exactly when there are fewer than two timestamps or no
      timestamp is later than the one before it. */
  lemma EstimateRateZero(ts: seq<real>)
    ensures EstimateRate(ts) == 0.0 <==> |ts| < 2 || forall i :: 1 <= i < |ts| ==> ts[i] - ts[i - 1] <= 0.0
  {
    NoPositiveIntervals(ts);
  }

  /** `1 / x` for a non-zero `x`; it has the sign of `x`. */
  function Reciprocal(x: real): (r: real)
    requires x != 0.0
    ensures r * x == 1.0
    ensures x > 0.0 ==> r > 0.0
    ensures r != 0.0
  {
    1.0 / x
  }

  /** The quotient of two positive reals is positive. */
  lemma PositiveQuotient(a: real, b: real)
    requires a > 0.0 && b > 0.0
    ensures a / b > 0.0
  {
    assert (a / b) * b == a;
  }

  /** `std` is the population standard deviation of `arr` (any value when
      `arr` is empty, where `_zscore` never looks at it). */
  ghost predicate IsStdOf(std: real, arr: seq<real>) {
    |arr| == 0 || (std >= 0.0 && std * std == Variance(arr))
  }

  /** `_zscore`: one score per element; all zeros when the standard deviation
      is zero, otherwise the distance from the mean in units of `std`. */
  function ZScore(arr: seq<real>, std: real): (z: seq<real>)
    requires IsStdOf(std, arr)
    ensures |z| == |arr|
    ensures std == 0.0 ==> forall i :: 0 <= i < |z| ==> z[i] == 0.0
    ensures std != 0.0 ==> forall i :: 0 <= i < |z| ==> z[i] * std == arr[i] - Mean(arr)
  {
    if |arr| == 0 then []
    else if std == 0.0 then seq(|arr|, i => 0.0)
    else
      var m := Mean(arr);
      seq(|arr|, i requires 0 <= i < |arr| => (arr[i] - m) / std)
  }

  // ---------------------------------------------------------------------------
  // candidates

  /** Signals shorter than this produce no change-point candidates. */
  const MinChangepointSignal: nat := 10

  /** Maps each positive breakpoint `b` (a segment end) to the index
      `max(0, b - 1)` of the segment's last sample, in order, and drops the
      others. */
  function BreakpointIndices(bkps: seq<int>): (idx: seq<int>)
    ensures |idx| <= |bkps|
    ensures forall k :: 0 <= k < |idx| ==> idx[k] >= 0
    decreases |bkps|
  {
    if bkps == [] then []
    else
      var b := bkps[|bkps| - 1];
      BreakpointIndices(bkps[..|bkps| - 1]) + (if b > 0 then [if b - 1 > 0 then b - 1 else 0] else [])
  }

  /** Each index comes from a breakpoint one above it. */
  lemma {:induction false} BreakpointIndicesFrom(bkps: seq<int>)
    ensures forall x :: x in BreakpointIndices(bkps) ==> x + 1 in bkps
    decreases |bkps|
  {
    if bkps != [] {
      var p := bkps[..|bkps| - 1];
      var b := bkps[|bkps| - 1];
      BreakpointIndicesFrom(p);
      var earlier := BreakpointIndices(p);
      assert BreakpointIndices(bkps) == earlier + (if b > 0 then [if b - 1 > 0 then b - 1 else 0] else []);
      forall x | x in BreakpointIndices(bkps) ensures x + 1 in bkps {
        if x in earlier {
          var j :| 0 <= j < |p| && p[j] == x + 1;
          assert bkps[j] == x + 1;
        } else {
          assert bkps[|bkps| - 1] == x + 1;
        }
      }
    }
  }

  /** Each positive breakpoint contributes the index one below it. */
  lemma {:induction false} BreakpointIndicesCover(bkps: seq<int>)
    ensures forall c :: c in bkps && c > 0 ==> c - 1 in BreakpointIndices(bkps)
    decreases |bkps|
  {
    if bkps != [] {
      var p := bkps[..|bkps| - 1];
      var b := bkps[|bkps| - 1];
      BreakpointIndicesCover(p);
      var last := if b > 0 then [if b - 1 > 0 then b - 1 else 0] else [];
      assert BreakpointIndices(bkps) == BreakpointIndices(p) + last;
      forall c | c in bkps && c > 0 ensures c - 1 in BreakpointIndices(bkps) {
        var j :| 0 <= j < |bkps| && bkps[j] == c;
        if j < |p| {
          assert p[j] == c;
          assert c in p;
        } else {
          assert last == [c - 1];
        }
      }
    }
  }

  /** The conversion keeps the breakpoints' order. */
  lemma {:induction false} BreakpointIndicesIncreasing(bkps: seq<int>)
    requires StrictlyIncreasing(bkps)
    ensures StrictlyIncreasing(BreakpointIndices(bkps))
    decreases |bkps|
  {
    if bkps != [] {
      var p := bkps[..|bkps| - 1];
      var b := bkps[|bkps| - 1];
      BreakpointIndicesIncreasing(p);
      BreakpointIndicesFrom(p);
      var earlier := BreakpointIndices(p);
      forall k | 0 <= k < |earlier| ensures earlier[k] < b - 1 {
        assert earlier[k] in earlier;
        var j :| 0 <= j < |p| && p[j] == earlier[k] + 1;
        assert bkps[j] < bkps[|bkps| - 1];
      }
    }
  }

  /** `_changepoint_candidates` given the breakpoints PELT reported: nothing
      for a signal shorter than ten samples, otherwise exactly the
      non-negative indices one below a reported breakpoint. */
  function ChangepointCandidates(signalLength: nat, bkps: seq<int>): (idx: seq<int>)
    ensures signalLength < MinChangepointSignal ==> idx == []
    ensures signalLength >= MinChangepointSignal ==> forall x :: x in idx <==> x >= 0 && x + 1 in bkps
    ensures signalLength >= MinChangepointSignal ==> idx == BreakpointIndices(bkps)
  {
    if signalLength < MinChangepointSignal then []
    else
      var idx := BreakpointIndices(bkps);
      BreakpointIndicesFrom(bkps);
      BreakpointIndicesCover(bkps);
      assert forall x :: x >= 0 && x + 1 in bkps ==> x in idx by {
        forall x | x >= 0 && x + 1 in bkps ensures x in idx {
          assert (x + 1) - 1 == x;
        }
      }
      idx
  }

  /** The union of the threshold hits and the change-point indices. */
  function CandidateSet(drz: seq<real>, threshold: real, changepoints: seq<int>): set<int> {
    (set i | 0 <= i < |drz| && drz[i] >= threshold) + (set c | c in changepoints)
  }

  /** `sorted(s)` for a set of indices below `n`: each element once, ascending. */
  function SortedBelow(s: set<int>, n: nat): (sorted: seq<int>)
    ensures StrictlyIncreasing(sorted)
    ensures forall i :: i in sorted <==> i in s && 0 <= i < n
    decreases n
  {
    if n == 0 then []
    else
      var earlier := SortedBelow(s, n - 1);
      assert forall k :: 0 <= k < |earlier| ==> earlier[k] < n - 1 by {
        forall k | 0 <= k < |earlier| ensures earlier[k] < n - 1 {
          assert earlier[k] in earlier;
        }
      }
      earlier + (if n - 1 in s then [n - 1] else [])
  }

  // ---------------------------------------------------------------------------
  // minimum gap

  /** The "last kept time" the pass starts from: -1e9 seconds. */
  const InitialLastTime: real := -1000000000.0

  ghost predicate ValidIndices(idx: seq<int>, n: int) {
    forall k :: 0 <= k < |idx| ==> 0 <= idx[k] < n
  }

  /** The time of the last kept index, or the initial value when none is kept. */
  function LastKeptTime(ts: seq<real>, keep: seq<int>): real
    requires ValidIndices(keep, |ts|)
  {
    if keep == [] then InitialLastTime else ts[keep[|keep| - 1]]
  }

  /** Whether the pass keeps a candidate whose time is `t`, given what it has
      kept so far. */
  predicate TakesCandidate(ts: seq<real>, kept: seq<int>, t: real, minGap: real)
    requires ValidIndices(kept, |ts|)
  {
    t - LastKeptTime(ts, kept) >= minGap
  }

  /** The indices the greedy pass has kept after looking at the first `m`
      sorted candidates. */
  function KeptUpTo(ts: seq<real>, sorted: seq<int>, minGap: real, m: nat): (keep: seq<int>)
    requires ValidIndices(sorted, |ts|) && m <= |sorted|
    ensures ValidIndices(keep, |ts|)
    decreases m
  {
    if m == 0 then []
    else
      var before := KeptUpTo(ts, sorted, minGap, m - 1);
      before + (if TakesCandidate(ts, before, ts[sorted[m - 1]], minGap) then [sorted[m - 1]] else [])
  }

  /** After `m` candidates the kept indices are drawn, in order, from those
      candidates. */
  lemma {:induction false} KeptUpToSubsequence(ts: seq<real>, sorted: seq<int>, minGap: real, m: nat)
    requires ValidIndices(sorted, |ts|) && m <= |sorted|
    ensures IsSubsequence(KeptUpTo(ts, sorted, minGap, m), sorted[..m])
    decreases m
  {
    if m > 0 {
      var before := KeptUpTo(ts, sorted, minGap, m - 1);
      KeptUpToSubsequence(ts, sorted, minGap, m - 1);
      assert sorted[..m] == sorted[..m - 1] + [sorted[m - 1]];
      SubsequenceAppend(before, sorted[..m - 1], sorted[m - 1], TakesCandidate(ts, before, ts[sorted[m - 1]], minGap));
    }
  }

  /** After `m` candidates the first kept index is at least `minGap` after the
      initial time and every kept index at least `minGap` after the previous. */
  lemma {:induction false} KeptUpToSpacing(ts: seq<real>, sorted: seq<int>, minGap: real, m: nat)
    requires ValidIndices(sorted, |ts|) && m <= |sorted|
    ensures var keep := KeptUpTo(ts, sorted, minGap, m);
            && (keep != [] ==> ts[keep[0]] - InitialLastTime >= minGap)
            && (forall k :: 1 <= k < |keep| ==> ts[keep[k]] - ts[keep[k - 1]] >= minGap)
    decreases m
  {
    if m > 0 {
      KeptUpToSpacing(ts, sorted, minGap, m - 1);
    }
  }

  /** The greedy pass of `detect_events`: walking the sorted candidates, keep
      one exactly when its time is at least `minGap` after the last kept one.
      The kept indices are candidates in their original order, each at least
      `minGap` after its predecessor, the first at least `minGap` after the
      initial time. */
  function EnforceMinGap(ts: seq<real>, sorted: seq<int>, minGap: real): (keep: seq<int>)
    requires ValidIndices(sorted, |ts|)
    ensures IsSubsequence(keep, sorted)
    ensures ValidIndices(keep, |ts|)
    ensures keep != [] ==> ts[keep[0]] - InitialLastTime >= minGap
    ensures forall k :: 1 <= k < |keep| ==> ts[keep[k]] - ts[keep[k - 1]] >= minGap
  {
    KeptUpToSubsequence(ts, sorted, minGap, |sorted|);
    KeptUpToSpacing(ts, sorted, minGap, |sorted|);
    assert sorted[..|sorted|] == sorted;
    KeptUpTo(ts, sorted, minGap, |sorted|)
  }

  /** Once a later candidate has been looked at, membership of an earlier one
      in the kept list no longer changes. */
  lemma {:induction false} MinGapMembershipSettled(ts: seq<real>, sorted: seq<int>, minGap: real, x: int, j: nat, m: nat)
    requires ValidIndices(sorted, |ts|)
    requires j <= m <= |sorted|
    requires forall k :: j <= k < m ==> sorted[k] != x
    ensures x in KeptUpTo(ts, sorted, minGap, m) <==> x in KeptUpTo(ts, sorted, minGap, j)
    decreases m - j
  {
    if m > j {
      MinGapMembershipSettled(ts, sorted, minGap, x, j, m - 1);
      MembershipStep(ts, sorted, minGap, m - 1, x);
    }
  }

  /** Looking at one more candidate changes the membership of no other index. */
  lemma MembershipStep(ts: seq<real>, sorted: seq<int>, minGap: real, m: nat, x: int)
    requires ValidIndices(sorted, |ts|)
    requires m < |sorted| && x != sorted[m]
    ensures x in KeptUpTo(ts, sorted, minGap, m + 1) <==> x in KeptUpTo(ts, sorted, minGap, m)
  {
    var before := KeptUpTo(ts, sorted, minGap, m);
    var after := KeptUpTo(ts, sorted, minGap, m + 1);
    assert after == before || after == before + [sorted[m]];
  }

  /** A candidate is not among the indices kept before it is looked at. */
  lemma MinGapNotYetKept(ts: seq<real>, sorted: seq<int>, minGap: real, j: nat)
    requires ValidIndices(sorted, |ts|)
    requires StrictlyIncreasing(sorted)
    requires j < |sorted|
    ensures sorted[j] !in KeptUpTo(ts, sorted, minGap, j)
  {
    var prefix := sorted[..j];
    var before := KeptUpTo(ts, sorted, minGap, j);
    KeptUpToSubsequence(ts, sorted, minGap, j);
    SubsequenceMembers(before, prefix);
    forall k | 0 <= k < |before| ensures before[k] != sorted[j] {
      assert before[k] in before;
      var i :| 0 <= i < j && prefix[i] == before[k];
      assert sorted[i] < sorted[j];
    }
  }

  /** The drop rule: a candidate is kept exactly when its time is at least
      `minGap` after the last index kept among the candidates before it (or
      after the initial time when none was). */
  lemma MinGapDecision(ts: seq<real>, sorted: seq<int>, minGap: real, j: nat)
    requires ValidIndices(sorted, |ts|)
    requires StrictlyIncreasing(sorted)
    requires j < |sorted|
    ensures var before := KeptUpTo(ts, sorted, minGap, j);
            sorted[j] in EnforceMinGap(ts, sorted, minGap)
            <==> ts[sorted[j]] - LastKeptTime(ts, before) >= minGap
  {
    assert forall k :: j + 1 <= k < |sorted| ==> sorted[k] != sorted[j];
    MinGapMembershipSettled(ts, sorted, minGap, sorted[j], j + 1, |sorted|);
    MinGapNotYetKept(ts, sorted, minGap, j);
  }

  /** Looking at the candidates one at a time: the pass over the first `m`
      candidates keeps what the whole pass run on those `m` alone keeps. */
  lemma {:induction false} KeptUpToIsPrefixPass(ts: seq<real>, sorted: seq<int>, minGap: real, m: nat)
    requires ValidIndices(sorted, |ts|) && m <= |sorted|
    ensures KeptUpTo(ts, sorted, minGap, m) == EnforceMinGap(ts, sorted[..m], minGap)
    decreases m
  {
    PrefixPassAgrees(ts, sorted, sorted[..m], minGap, m);
    assert sorted[..m][..m] == sorted[..m];
  }

  /** Two candidate lists agreeing on their first `m` entries are treated
      alike for those `m` entries. */
  lemma {:induction false} PrefixPassAgrees(ts: seq<real>, a: seq<int>, b: seq<int>, minGap: real, m: nat)
    requires ValidIndices(a, |ts|) && ValidIndices(b, |ts|)
    requires m <= |a| && m <= |b|
    requires forall k :: 0 <= k < m ==> a[k] == b[k]
    ensures KeptUpTo(ts, a, minGap, m) == KeptUpTo(ts, b, minGap, m)
    decreases m
  {
    if m > 0 {
      PrefixPassAgrees(ts, a, b, minGap, m - 1);
    }
  }

  // ---------------------------------------------------------------------------
  // event records

  datatype Event = Event(
    eventId: string,
    timeSec: real,
    rule: string,
    deltaKohm: real,
    deltaZ: Option<real>,
    score: real)

  /** The id of the event at index `idx`: "evt-" and the index in decimal. */
  function EventId(idx: nat): string {
    "evt-" + NatToString(idx)
  }

  /** Distinct indices get distinct event ids. */
  lemma EventIdInjective(a: nat, b: nat)
    ensures EventId(a) == EventId(b) ==> a == b
  {
    if EventId(a) == EventId(b) {
      assert NatToString(a) == EventId(a)[4..] == EventId(b)[4..] == NatToString(b);
      NatToStringInjective(a, b);
    }
  }

  /** Strictly increasing indices give pairwise distinct event ids. */
  lemma EventIdsDistinct(keep: seq<int>)
    requires forall k :: 0 <= k < |keep| ==> keep[k] >= 0
    requires StrictlyIncreasing(keep)
    ensures forall i, j :: 0 <= i < j < |keep| ==> EventId(keep[i]) != EventId(keep[j])
  {
    forall i, j | 0 <= i < j < |keep| ensures EventId(keep[i]) != EventId(keep[j]) {
      EventIdInjective(keep[i], keep[j]);
    }
  }

  /** The record for one kept index: its id and time, the rule's name, the
      distance of the reading from `baseline`, the z-score when there is one,
      and a score that is the sum of their magnitudes. */
  function MakeEvent(idx: nat, ts: seq<real>, readings: seq<real>, zscores: seq<real>, baseline: real, rule: EventRule): (e: Event)
    requires idx < |ts| && idx < |readings|
    ensures e.eventId == EventId(idx) && e.timeSec == ts[idx] && e.rule == rule.name
    ensures e.deltaKohm + baseline == readings[idx]
    ensures e.deltaZ == (if idx < |zscores| then Some(zscores[idx]) else None)
    ensures e.score >= 0.0
    ensures e.deltaZ.Some? ==> e.score == Abs(e.deltaZ.value) + Abs(e.deltaKohm)
    ensures e.deltaZ.None? ==> e.score == Abs(e.deltaKohm)
  {
    var deltaKohm := readings[idx] - baseline;
    var deltaZ := if |zscores| > idx then Some(zscores[idx]) else None;
    Event(EventId(idx), ts[idx], rule.name, deltaKohm, deltaZ, Abs(deltaZ.GetOr(0.0)) + Abs(deltaKohm))
  }

  /** One event per kept index, in order, measured against the median reading;
      none at all when there are no readings. */
  function AssembleEvents(ts: seq<real>, readings: seq<real>, keep: seq<int>, rule: EventRule, std: real): (events: seq<Event>)
    requires |ts| == |readings|
    requires ValidIndices(keep, |readings|)
    requires IsStdOf(std, readings)
    ensures |readings| == 0 ==> |events| == 0
    ensures |readings| > 0 ==> |events| == |keep|
    ensures EventsAt(events, keep, ts)
    ensures forall k :: 0 <= k < |events| ==> events[k].rule == rule.name
    ensures forall k :: 0 <= k < |events| ==> events[k].deltaZ.Some? && events[k].score >= 0.0
    ensures |readings| > 0 ==>
              forall k {:trigger MakeEvent(keep[k], ts, readings, ZScore(readings, std), Median(readings), rule)} :: 0 <= k < |events| ==>
                && events[k] == MakeEvent(keep[k], ts, readings, ZScore(readings, std), Median(readings), rule)
                && events[k].deltaZ == Some(ZScore(readings, std)[keep[k]])
                && events[k].deltaKohm + Median(readings) == readings[keep[k]]
  {
    if |readings| == 0 then []
    else
      var zscores := ZScore(readings, std);
      var baseline := Median(readings);
      seq(|keep|, k requires 0 <= k < |keep| => MakeEvent(keep[k], ts, readings, zscores, baseline, rule))
  }

  // ---------------------------------------------------------------------------
  // detect_events

  /** The indices the min-gap pass keeps for these detector outputs: valid,
      increasing and spaced by the rule's gap, and each sorted candidate is
      kept exactly when it is far enough from the last index kept before it. */
  function KeptIndices(ts: seq<real>, drz: seq<real>, rule: EventRule, breakpoints: seq<int>): (keep: seq<int>)
    requires |ts| == |drz|
    requires forall b :: b in breakpoints ==> b <= |drz|
    ensures ValidIndices(keep, |ts|)
    ensures StrictlyIncreasing(keep)
    ensures forall k :: 1 <= k < |keep| ==> ts[keep[k]] - ts[keep[k - 1]] >= rule.minGapSec
    ensures var sorted := SortedCandidates(drz, rule, breakpoints);
            forall j :: 0 <= j < |sorted| ==>
              (sorted[j] in keep
               <==> TakesCandidate(ts, KeptUpTo(ts, sorted, rule.minGapSec, j), ts[sorted[j]], rule.minGapSec))
  {
    var sorted := SortedCandidates(drz, rule, breakpoints);
    var keep := EnforceMinGap(ts, sorted, rule.minGapSec);
    SubsequenceIncreasing(keep, sorted);
    forall j | 0 <= j < |sorted|
      ensures sorted[j] in keep
              <==> TakesCandidate(ts, KeptUpTo(ts, sorted, rule.minGapSec, j), ts[sorted[j]], rule.minGapSec)
    {
      MinGapDecision(ts, sorted, rule.minGapSec, j);
    }
    keep
  }

  /** The candidate indices of `detect_events`, sorted, each once. */
  function SortedCandidates(drz: seq<real>, rule: EventRule, breakpoints: seq<int>): (sorted: seq<int>)
    requires forall b :: b in breakpoints ==> b <= |drz|
    ensures ValidIndices(sorted, |drz|)
    ensures StrictlyIncreasing(sorted)
    ensures forall i :: i in sorted <==> i in CandidateSet(drz, rule.derivativeZ, ChangepointCandidates(|drz|, breakpoints))
  {
    var candidates := CandidateSet(drz, rule.derivativeZ, ChangepointCandidates(|drz|, breakpoints));
    CandidatesInRange(drz, rule.derivativeZ, breakpoints);
    var sorted := SortedBelow(candidates, |drz|);
    assert ValidIndices(sorted, |drz|) by {
      forall k | 0 <= k < |sorted| ensures 0 <= sorted[k] < |drz| {
        assert sorted[k] in sorted;
      }
    }
    sorted
  }

  /** Every kept index is a candidate: a threshold hit or a change point. */
  lemma KeptIndicesAreCandidates(ts: seq<real>, drz: seq<real>, rule: EventRule, breakpoints: seq<int>)
    requires |ts| == |drz|
    requires forall b :: b in breakpoints ==> b <= |drz|
    ensures var keep := KeptIndices(ts, drz, rule, breakpoints);
            forall k :: 0 <= k < |keep| ==>
              (0 <= keep[k] < |drz| && drz[keep[k]] >= rule.derivativeZ)
              || keep[k] in ChangepointCandidates(|drz|, breakpoints)
  {
    var keep := KeptIndices(ts, drz, rule, breakpoints);
    var sorted := SortedCandidates(drz, rule, breakpoints);
    SubsequenceMembers(keep, sorted);
    forall k | 0 <= k < |keep|
      ensures (0 <= keep[k] < |drz| && drz[keep[k]] >= rule.derivativeZ)
              || keep[k] in ChangepointCandidates(|drz|, breakpoints)
    {
      assert keep[k] in keep;
    }
  }

  /** Every candidate index lies below the signal length. */
  lemma CandidatesInRange(drz: seq<real>, threshold: real, breakpoints: seq<int>)
    requires forall b :: b in breakpoints ==> b <= |drz|
    ensures forall i :: i in CandidateSet(drz, threshold, ChangepointCandidates(|drz|, breakpoints)) ==> 0 <= i < |drz|
  {
    BreakpointIndicesFrom(breakpoints);
  }

  /** Event `k` is the event for index `keep[k]`: it carries that index's id
      and time. */
  ghost predicate EventsAt(events: seq<Event>, keep: seq<int>, ts: seq<real>) {
    && |events| <= |keep|
    && forall k :: 0 <= k < |events| ==>
         && 0 <= keep[k] < |ts|
         && events[k].eventId == EventId(keep[k])
         && events[k].timeSec == ts[keep[k]]
  }

  /** Events built one per kept index inherit the indices' spacing and
      distinctness. */
  lemma EventsInherit(ts: seq<real>, keep: seq<int>, minGap: real, events: seq<Event>)
    requires ValidIndices(keep, |ts|)
    requires StrictlyIncreasing(keep)
    requires forall k :: 1 <= k < |keep| ==> ts[keep[k]] - ts[keep[k - 1]] >= minGap
    requires EventsAt(events, keep, ts)
    ensures forall k :: 1 <= k < |events| ==> events[k].timeSec - events[k - 1].timeSec >= minGap
    ensures forall i, j :: 0 <= i < j < |events| ==> events[i].eventId != events[j].eventId
  {
    EventIdsDistinct(keep);
  }

  /** `detect_events`: the events for the kept candidate indices. Their times
      are at least the rule's minimum gap apart, their ids are pairwise
      distinct, they carry the selected rule's name and a non-negative score,
      and there are none without readings. */
  function DetectEvents(
    ts: seq<real>, readings: seq<real>, ruleset: string,
    drz: seq<real>, breakpoints: seq<int>, std: real
  ): (events: seq<Event>)
    requires |ts| == |readings| == |drz|
    requires forall b :: b in breakpoints ==> b <= |readings|
    requires IsStdOf(std, readings)
    ensures var keep := KeptIndices(ts, drz, RuleFor(ruleset), breakpoints);
            && (|readings| > 0 ==> |events| == |keep|)
            && EventsAt(events, keep, ts)
    ensures |readings| == 0 ==> |events| == 0
    ensures forall k :: 0 <= k < |events| ==> events[k].rule == RuleFor(ruleset).name
    ensures forall k :: 0 <= k < |events| ==> events[k].score >= 0.0
    ensures forall k :: 1 <= k < |events| ==> events[k].timeSec - events[k - 1].timeSec >= RuleFor(ruleset).minGapSec
    ensures forall i, j :: 0 <= i < j < |events| ==> events[i].eventId != events[j].eventId
  {
    var rule := RuleFor(ruleset);
    var keep := KeptIndices(ts, drz, rule, breakpoints);
    AssembledFacts(ts, readings, keep, rule, std);
    AssembleEvents(ts, readings, keep, rule, std)
  }

  /** What the events assembled for spaced, increasing indices satisfy. */
  lemma AssembledFacts(ts: seq<real>, readings: seq<real>, keep: seq<int>, rule: EventRule, std: real)
    requires |ts| == |readings|
    requires ValidIndices(keep, |readings|)
    requires StrictlyIncreasing(keep)
    requires forall k :: 1 <= k < |keep| ==> ts[keep[k]] - ts[keep[k - 1]] >= rule.minGapSec
    requires IsStdOf(std, readings)
    ensures var events := AssembleEvents(ts, readings, keep, rule, std);
            && (|readings| > 0 ==> |events| == |keep|)
            && (|readings| == 0 ==> |events| == 0)
            && EventsAt(events, keep, ts)
            && (forall k :: 0 <= k < |events| ==> events[k].rule == rule.name)
            && (forall k :: 0 <= k < |events| ==> events[k].score >= 0.0)
            && (forall k :: 1 <= k < |events| ==> events[k].timeSec - events[k - 1].timeSec >= rule.minGapSec)
            && (forall i, j :: 0 <= i < j < |events| ==> events[i].eventId != events[j].eventId)
  {
    var events := AssembleEvents(ts, readings, keep, rule, std);
    EventsInherit(ts, keep, rule.minGapSec, events);
  }

  /** The detected events are the records assembled for the kept indices of
      the selected rule, so each carries the exact `delta_kohm`, `delta_z`
      and score that `MakeEvent` states. */
  lemma DetectEventsAssembles(
    ts: seq<real>, readings: seq<real>, ruleset: string,
    drz: seq<real>, breakpoints: seq<int>, std: real)
    requires |ts| == |readings| == |drz|
    requires forall b :: b in breakpoints ==> b <= |readings|
    requires IsStdOf(std, readings)
    ensures DetectEvents(ts, readings, ruleset, drz, breakpoints, std)
            == AssembleEvents(ts, readings, KeptIndices(ts, drz, RuleFor(ruleset), breakpoints), RuleFor(ruleset), std)
  {
  }
}

=== FILE: results.dfy ===
/** Failure-carrying values shared by the modules of this model: a Python
    `None`-or-value becomes an Option, and a raised error becomes a Result. */
module Results {

  datatype Option<+T> = None | Some(value: T) {
    /** The value, or `default` when absent (Python's `x or default` on an optional). */
    function GetOr(default: T): T {
      match this
      case Some(v) => v
      case None => default
    }
  }

  datatype Result<+T, +E> = Ok(value: T) | Err(error: E)
}

=== FILE: sequences.dfy ===
/** Order facts about sequences used by the filters and the event thinning pass. */
module Sequences {

  ghost predicate StrictlyIncreasing(s: seq<int>) {
    forall i, j :: 0 <= i < j < |s| ==> s[i] < s[j]
  }

  /** `a` can be obtained from `b` by deleting elements, keeping the order of the rest. */
  ghost predicate IsSubsequence<T>(a: seq<T>, b: seq<T>)
    decreases |b|
  {
    if a == [] then true
    else if b == [] then false
    else
      (a[|a| - 1] == b[|b| - 1] && IsSubsequence(a[..|a| - 1], b[..|b| - 1]))
      || IsSubsequence(a, b[..|b| - 1])
  }

  lemma {:induction false} SubsequenceAppend<T>(a: seq<T>, b: seq<T>, x: T, keep: bool)
    requires IsSubsequence(a, b)
    ensures IsSubsequence(a + (if keep then [x] else []), b + [x])
  {
    var b' := b + [x];
    assert b'[..|b'| - 1] == b;
    if keep {
      var a' := a + [x];
      assert a'[..|a'| - 1] == a;
    } else {
      assert a + [] == a;
      assert IsSubsequence(a, b'[..|b'| - 1]);
    }
  }

  /** Every element of a subsequence occurs in the sequence it was taken from. */
  lemma {:induction false} SubsequenceMembers<T>(a: seq<T>, b: seq<T>)
    requires IsSubsequence(a, b)
    ensures forall x :: x in a ==> x in b
    decreases |b|
  {
    if a != [] {
      var b' := b[..|b| - 1];
      if a[|a| - 1] == b[|b| - 1] && IsSubsequence(a[..|a| - 1], b') {
        SubsequenceMembers(a[..|a| - 1], b');
        assert a == a[..|a| - 1] + [a[|a| - 1]];
        assert b == b' + [b[|b| - 1]];
      } else {
        SubsequenceMembers(a, b');
        assert b == b' + [b[|b| - 1]];
      }
    }
  }

  /** Deleting elements from a strictly increasing sequence leaves it strictly increasing. */
  lemma {:induction false} SubsequenceIncreasing(a: seq<int>, b: seq<int>)
    requires IsSubsequence(a, b)
    requires StrictlyIncreasing(b)
    ensures StrictlyIncreasing(a)
    decreases |b|
  {
    if a != [] {
      var b' := b[..|b| - 1];
      var a' := a[..|a| - 1];
      if a[|a| - 1] == b[|b| - 1] && IsSubsequence(a', b') {
        SubsequenceIncreasing(a', b');
        SubsequenceMembers(a', b');
        forall i, j | 0 <= i < j < |a|
          ensures a[i] < a[j]
        {
          if j == |a| - 1 {
            assert a[i] == a'[i] && a'[i] in b';
            var k :| 0 <= k < |b'| && b'[k] == a[i];
            assert b[k] < b[|b| - 1];
          } else {
            assert a[i] == a'[i] && a[j] == a'[j];
          }
        }
      } else {
        SubsequenceIncreasing(a, b');
      }
    }
  }
}

=== FILE: sorting.dfy ===
/** Sorting a sequence of records by a real-valued key, as `sort_values` does
    for a table and `np.median` does internally. Only "ascending by key" and
    "same records" are promised; the relative order of records with equal keys
    is not part of the contract. */
module Sorting {

  ghost predicate SortedBy<T>(s: seq<T>, key: T -> real) {
    forall i, j :: 0 <= i < j < |s| ==> key(s[i]) <= key(s[j])
  }

  /** Inserts `x` into the sorted `s`, before the first element with a larger key. */
  function Insert<T>(x: T, s: seq<T>, key: T -> real): (r: seq<T>)
    requires SortedBy(s, key)
    ensures SortedBy(r, key)
    ensures multiset(r) == multiset(s) + multiset{x}
    ensures |r| == |s| + 1
    ensures r[0] == x || (s != [] && r[0] == s[0])
    decreases |s|
  {
    if s == [] || key(x) <= key(s[0]) then [x] + s
    else
      var rest := Insert(x, s[1..], key);
      assert s == [s[0]] + s[1..];
      assert key(s[0]) <= key(rest[0]);
      SortedCons(s[0], rest, key);
      [s[0]] + rest
  }

  /** A sorted sequence stays sorted under a head no larger than its first key. */
  lemma SortedCons<T>(h: T, s: seq<T>, key: T -> real)
    requires SortedBy(s, key)
    requires s != [] ==> key(h) <= key(s[0])
    ensures SortedBy([h] + s, key)
  {
    var r := [h] + s;
    forall i, j | 0 <= i < j < |r| ensures key(r[i]) <= key(r[j]) {
      if i == 0 && j > 1 {
        assert r[j] == s[j - 1];
        assert key(s[0]) <= key(s[j - 1]);
      }
    }
  }

  /** Sorts `s` ascending by `key`: the result is ordered and holds exactly the
      records of `s`, each as often as in `s`. */
  function SortBy<T>(s: seq<T>, key: T -> real): (r: seq<T>)
    ensures SortedBy(r, key)
    ensures multiset(r) == multiset(s)
    ensures |r| == |s|
    decreases |s|
  {
    if s == [] then []
    else
      assert s == [s[0]] + s[1..];
      Insert(s[0], SortBy(s[1..], key), key)
  }
}

=== FILE: stats.dfy ===
/** The numeric summaries the backend takes from numpy and pandas, over exact
    reals: sum, mean, population variance (`np.std` squared, `ddof=0`) and
    median. */
module Stats {
  import opened Sorting

  function Abs(x: real): (r: real)
    ensures r >= 0.0 && (r == x || r == -x)
  {
    if x < 0.0 then -x else x
  }

  function Sum(s: seq<real>): real
    decreases |s|
  {
    if s == [] then 0.0 else Sum(s[..|s| - 1]) + s[|s| - 1]
  }

  function Mean(s: seq<real>): real
    requires |s| > 0
  {
    Sum(s) / |s| as real
  }

  /** The squared distances of the elements of `s` from `m`. */
  function SquaredDeviations(s: seq<real>, m: real): (q: seq<real>)
    ensures |q| == |s|
    ensures forall i :: 0 <= i < |q| ==> q[i] == (s[i] - m) * (s[i] - m)
  {
    seq(|s|, i requires 0 <= i < |s| => (s[i] - m) * (s[i] - m))
  }

  /** Population variance: the mean squared distance from the mean. */
  function Variance(s: seq<real>): real
    requires |s| > 0
  {
    Mean(SquaredDeviations(s, Mean(s)))
  }

  /** A sum of positive terms over a non-empty sequence is positive. */
  lemma {:induction false} SumPositive(s: seq<real>)
    requires |s| > 0
    requires forall i :: 0 <= i < |s| ==> s[i] > 0.0
    ensures Sum(s) > 0.0
    decreases |s|
  {
    var p := s[..|s| - 1];
    if p != [] {
      SumPositive(p);
    }
  }

  /** The successive differences of `ts`, one per adjacent pair (a pandas
      `diff` with its leading missing value dropped, or `np.diff`). */
  function Diffs(ts: seq<real>): (d: seq<real>)
    ensures |ts| >= 1 ==> |d| == |ts| - 1
    ensures |ts| == 0 ==> d == []
    decreases |ts|
  {
    if |ts| < 2 then [] else Diffs(ts[..|ts| - 1]) + [ts[|ts| - 1] - ts[|ts| - 2]]
  }

  /** Entry `i` of the differences is the step from `ts[i]` to `ts[i + 1]`. */
  lemma {:induction false} DiffsAt(ts: seq<real>)
    ensures forall i :: 0 <= i < |Diffs(ts)| ==> Diffs(ts)[i] == ts[i + 1] - ts[i]
    decreases |ts|
  {
    if |ts| >= 2 {
      var p := ts[..|ts| - 1];
      DiffsAt(p);
      assert forall i :: 0 <= i < |Diffs(p)| ==> Diffs(ts)[i] == Diffs(p)[i];
    }
  }

  /** The successive differences add up to the last time minus the first. */
  lemma {:induction false} DiffsTelescope(ts: seq<real>)
    requires |ts| >= 1
    ensures Sum(Diffs(ts)) == ts[|ts| - 1] - ts[0]
    decreases |ts|
  {
    if |ts| >= 2 {
      var p := ts[..|ts| - 1];
      DiffsTelescope(p);
      assert Diffs(ts)[..|Diffs(ts)| - 1] == Diffs(p);
    }
  }

  /** `np.median` of a non-empty array: the middle element of the sorted
      values, or the average of the two middle ones for an even count. */
  function Median(s: seq<real>): (m: real)
    requires |s| > 0
    ensures exists i :: 0 <= i < |s| && s[i] <= m
    ensures exists j :: 0 <= j < |s| && m <= s[j]
  {
    var t := SortBy(s, (x: real) => x);
    var n := |t|;
    var lo := t[(n - 1) / 2];
    var hi := t[n / 2];
    assert lo in multiset(s) && hi in multiset(s);
    if n % 2 == 1 then hi else (lo + hi) / 2.0
  }
}

=== FILE: storage.dfy ===
/** The target-name choice of `save_temp_upload` in
    backend/app/services/storage.py. The directory is the finite set of names
    already in it; an upload keeps its own name when that is free, and
    otherwise takes `stem-k` plus the suffix for the least free `k >= 1`. */
module Storage {
  import opened Results
  import opened Text

  /** The position of the last `c` in `s` (`str.rfind`). */
  function LastIndexOf(s: string, c: char): (r: Option<nat>)
    ensures r.Some? ==> r.value < |s| && s[r.value] == c
    ensures r.Some? ==> forall j :: r.value < j < |s| ==> s[j] != c
    ensures r.None? ==> forall j :: 0 <= j < |s| ==> s[j] != c
    decreases |s|
  {
    if s == [] then None
    else if s[|s| - 1] == c then Some(|s| - 1)
    else LastIndexOf(s[..|s| - 1], c)
  }

  /** The final path component (`PurePath.name`): trailing separators are
      ignored and the text after the last '/' is kept. */
  function FinalComponent(path: string): (name: string)
    ensures forall j :: 0 <= j < |name| ==> name[j] != '/'
  {
    var trimmed := TrimEndBy(path, c => c == '/');
    match LastIndexOf(trimmed, '/')
    case None => trimmed
    case Some(i) => trimmed[i + 1..]
  }

  /** A name without a suffix: it has no dot, ends in a dot, or its only dot
      is its first character. */
  predicate NoSuffixDot(name: string) {
    || (forall j :: 0 <= j < |name| ==> name[j] != '.')
    || (|name| > 0 && name[|name| - 1] == '.')
    || (|name| > 0 && name[0] == '.' && forall j :: 0 < j < |name| ==> name[j] != '.')
  }

  /** Where the name splits into stem and suffix: at its last dot, provided
      the dot is neither the first nor the last character. */
  function SuffixStart(name: string): (r: Option<nat>)
    ensures r.Some? ==> 0 < r.value < |name| - 1 && name[r.value] == '.'
    ensures r.Some? ==> forall j :: r.value < j < |name| ==> name[j] != '.'
    ensures r.None? <==> NoSuffixDot(name)
  {
    match LastIndexOf(name, '.')
    case Some(i) =>
      if 0 < i < |name| - 1 then
        assert name[|name| - 1] != '.';
        Some(i)
      else None
    case None => None
  }

  /** `PurePath(path).suffix`. */
  function Suffix(path: string): string {
    var name := FinalComponent(path);
    match SuffixStart(name)
    case Some(i) => name[i..]
    case None => []
  }

  /** `PurePath(path).stem`. */
  function Stem(path: string): string {
    var name := FinalComponent(path);
    match SuffixStart(name)
    case Some(i) => name[..i]
    case None => name
  }

  /** Stem and suffix split the final component: the suffix is empty exactly
      when the name has no suffix dot, otherwise it is one dot followed by at
      least one dot-free character, and the stem is empty only when the name
      is. */
  lemma StemSuffixSplit(path: string)
    ensures Stem(path) + Suffix(path) == FinalComponent(path)
    ensures Suffix(path) == [] <==> NoSuffixDot(FinalComponent(path))
    ensures Suffix(path) == [] || (|Suffix(path)| >= 2 && Suffix(path)[0] == '.')
    ensures forall j :: 0 < j < |Suffix(path)| ==> Suffix(path)[j] != '.'
    ensures Stem(path) == [] ==> FinalComponent(path) == []
  {
    var name := FinalComponent(path);
    match SuffixStart(name)
    case Some(i) => SplitAtDot(name, i);
    case None =>
  }

  /** Splitting at the suffix dot `i`: the two halves rebuild the name and the
      suffix holds no further dot. */
  lemma SplitAtDot(name: string, i: nat)
    requires 0 < i < |name| - 1 && name[i] == '.'
    requires forall j :: i < j < |name| ==> name[j] != '.'
    ensures name[..i] + name[i..] == name
    ensures name[..i] != [] && |name[i..]| >= 2 && name[i..][0] == '.'
    ensures forall j :: 0 < j < |name[i..]| ==> name[i..][j] != '.'
  {
    assert forall j :: 0 < j < |name[i..]| ==> name[i..][j] == name[i + j];
  }

  /** The upload's file name, or `fallback` when it is missing or empty:
      "upload" for the name itself, "upload.bin" for the suffix. */
  function NameOr(filename: Option<string>, fallback: string): (name: string)
    ensures filename.Some? && filename.value != [] ==> name == filename.value
    ensures filename.None? || filename.value == [] ==> name == fallback
  {
    if filename.Some? && filename.value != [] then filename.value else fallback
  }

  /** The `k`-th alternative name: the stem, a hyphen, `k` in decimal, then
      the suffix. */
  function CollisionName(filename: Option<string>, k: nat): string {
    Stem(NameOr(filename, "upload")) + "-" + NatToString(k) + Suffix(NameOr(filename, "upload.bin"))
  }

  /** Different counters give different alternative names. */
  lemma CollisionNameInjective(filename: Option<string>, a: nat, b: nat)
    requires CollisionName(filename, a) == CollisionName(filename, b)
    ensures a == b
  {
    var stem := Stem(NameOr(filename, "upload")) + "-";
    var suffix := Suffix(NameOr(filename, "upload.bin"));
    var sa := NatToString(a);
    var sb := NatToString(b);
    assert |sa| == |sb|;
    assert stem + sa + suffix == stem + sb + suffix;
    assert (stem + sa + suffix)[|stem|..|stem| + |sa|] == sa;
    assert (stem + sb + suffix)[|stem|..|stem| + |sb|] == sb;
    NatToStringInjective(a, b);
  }

  /** The `while True` search: the least counter `k >= 1` whose name is not
      among the existing ones. It stops because the names are pairwise
      distinct and only finitely many of them can be taken. */
  method LeastFree(existing: set<string>, name: nat -> string) returns (k: nat)
    requires forall a: nat, b: nat :: name(a) == name(b) ==> a == b
    ensures k >= 1 && name(k) !in existing
    ensures forall j :: 1 <= j < k ==> name(j) in existing
  {
    k := 1;
    ghost var seen: set<string> := {};
    while name(k) in existing
      invariant k >= 1
      invariant seen <= existing
      invariant |seen| == k - 1
      invariant forall j :: 1 <= j < k ==> name(j) in seen
      invariant forall x :: x in seen ==> exists j :: 1 <= j < k && x == name(j)
      decreases |existing| - |seen|
    {
      seen := seen + {name(k)};
      k := k + 1;
      SubsetCardinality(seen, existing);
    }
  }

  /** The name `save_temp_upload` writes to, given the names already present:
      the upload's own name if free, else the first free alternative. */
  method ChooseTarget(existing: set<string>, filename: Option<string>) returns (target: string)
    ensures target !in existing
    ensures NameOr(filename, "upload") !in existing ==> target == NameOr(filename, "upload")
    ensures NameOr(filename, "upload") in existing ==>
              exists k :: k >= 1 && target == CollisionName(filename, k)
                          && forall j :: 1 <= j < k ==> CollisionName(filename, j) in existing
  {
    target := NameOr(filename, "upload");
    if target !in existing {
      return;
    }
    forall a: nat, b: nat | CollisionName(filename, a) == CollisionName(filename, b) ensures a == b {
      CollisionNameInjective(filename, a, b);
    }
    var name := (j: nat) => CollisionName(filename, j);
    var k := LeastFree(existing, name);
    target := CollisionName(filename, k);
    assert forall j :: 1 <= j < k ==> CollisionName(filename, j) in existing by {
      forall j | 1 <= j < k ensures CollisionName(filename, j) in existing {
        assert name(j) in existing;
      }
    }
  }

  /** A subset is no larger than its superset. */
  lemma {:induction false} SubsetCardinality<T>(a: set<T>, b: set<T>)
    requires a <= b
    ensures |a| <= |b|
    decreases |a|
  {
    if a != {} {
      var x :| x in a;
      SubsetCardinality(a - {x}, b - {x});
    }
  }

  /** Without a file name the first choice is "upload" and the alternatives
      are "upload-1.bin", "upload-2.bin", and so on. */
  lemma DefaultNames(k: nat)
    ensures NameOr(None, "upload") == "upload"
    ensures CollisionName(None, k) == "upload-" + NatToString(k) + ".bin"
  {
    var digits := NatToString(k);
    calc {
      CollisionName(None, k);
      Stem("upload") + "-" + digits + Suffix("upload.bin");
      { DefaultStem(); DefaultSuffix(); }
      "upload" + "-" + digits + ".bin";
      { assert "upload" + "-" == "upload-"; }
      "upload-" + digits + ".bin";
    }
  }

  lemma DefaultStem()
    ensures Stem("upload") == "upload"
  {
    assert TrimEndBy("upload", c => c == '/') == "upload";
    assert FinalComponent("upload") == "upload";
    assert LastIndexOf("upload", '.') == None;
  }

  lemma DefaultSuffix()
    ensures Suffix("upload.bin") == ".bin"
  {
    assert TrimEndBy("upload.bin", c => c == '/') == "upload.bin";
    assert FinalComponent("upload.bin") == "upload.bin";
    assert "upload.bin"[..9] == "upload.bi" && "upload.bi"[..8] == "upload.b";
    assert "upload.b"[..7] == "upload.";
    assert LastIndexOf("upload.", '.') == Some(6);
    assert LastIndexOf("upload.bin", '.') == Some(6);
    assert SuffixStart("upload.bin") == Some(6);
  }
}

=== FILE: summary.dfy ===
/** The text handling of `summarize_with_local_llm` in
    backend/app/services/summary.py: the minimum-length gate applied before
    any request is made, and the fallback that turns a reply which is not
    JSON into a short summary. The HTTP exchange itself is replaced by the
    reply it produced, given as a parameter. */
module Summary {
  import opened Results
  import opened Text

  /** Excerpts with fewer words than this are not sent to the model. */
  const MinWords: nat := 6

  /** The fallback keeps at most this many words. */
  const MaxSummaryWords: nat := 20

  /** The model's `response` field: either it decodes as a JSON object, whose
      `summary` entry may be missing, or it does not decode at all. */
  datatype LlmReply =
    | JsonObject(summary: Option<string>)
    | NotJson(response: string)

  /** The characters at which Python's `str.splitlines()` breaks a line. */
  predicate IsLineBreak(c: char) {
    || c == '\n' || c == '\r' || c == '\U{0b}' || c == '\U{0c}'
    || ('\U{1c}' <= c <= '\U{1e}')
    || c == '\U{85}' || c == '\U{2028}' || c == '\U{2029}'
  }

  /** The first line of a non-empty `s`: everything before the first line
      break. */
  function FirstLine(s: string): (line: string)
    ensures line <= s
    ensures forall i :: 0 <= i < |line| ==> !IsLineBreak(line[i])
    ensures |line| < |s| ==> IsLineBreak(s[|line|])
    decreases |s|
  {
    if s == [] || IsLineBreak(s[0]) then [] else [s[0]] + FirstLine(s[1..])
  }

  predicate IsQuote(c: char) {
    c == '"'
  }

  /** The text the fallback takes its words from: the first line of the
      stripped response, stripped of whitespace and then of double quotes. */
  function FallbackLine(response: string): string {
    StripBy(Strip(FirstLine(Strip(response))), IsQuote)
  }

  function Min(a: nat, b: nat): (m: nat)
    ensures m <= a && m <= b && (m == a || m == b)
  {
    if a <= b then a else b
  }

  /** The first twenty words joined by single spaces, or nothing when there
      are no words. */
  function Truncate(ws: seq<string>): (r: Option<string>)
    ensures r.None? <==> ws == []
  {
    if ws == [] then None
    else if |ws| <= MaxSummaryWords then Some(Join(ws))
    else Some(Join(ws[..MaxSummaryWords]))
  }

  /** Truncation keeps the leading words, at most twenty of them, and splits
      back into exactly those words. */
  lemma TruncateWords(ws: seq<string>)
    requires forall k :: 0 <= k < |ws| ==> IsWord(ws[k])
    ensures var r := Truncate(ws);
            r.Some? ==>
              && |Words(r.value)| == Min(MaxSummaryWords, |ws|)
              && Words(r.value) == ws[..|Words(r.value)|]
  {
    if ws != [] {
      if |ws| <= MaxSummaryWords {
        WordsOfJoin(ws);
        assert ws[..|ws|] == ws;
      } else {
        WordsOfJoin(ws[..MaxSummaryWords]);
      }
    }
  }

  /** The fallback for a reply that is not JSON: nothing for an empty reply or
      a first line without words, otherwise the first words of the first line
      joined by single spaces. */
  function Fallback(response: string): (r: Option<string>)
    ensures Strip(response) == [] ==> r.None?
    ensures Strip(response) != [] ==> (r.None? <==> Words(FallbackLine(response)) == [])
  {
    if Strip(response) == [] then None else Truncate(Words(FallbackLine(response)))
  }

  /** A fallback summary has at most twenty words, and they are the leading
      words of the reply's first line, as many of them as fit. */
  lemma FallbackWords(response: string)
    ensures var r := Fallback(response);
            r.Some? ==>
              var ws := Words(FallbackLine(response));
              && |Words(r.value)| <= MaxSummaryWords
              && |Words(r.value)| == Min(MaxSummaryWords, |ws|)
              && Words(r.value) == ws[..|Words(r.value)|]
  {
    var r := Fallback(response);
    if r.Some? {
      var ws := Words(FallbackLine(response));
      assert r == Truncate(ws);
      TruncateWords(ws);
      var n := |Words(r.value)|;
      assert n == Min(MaxSummaryWords, |ws|) && Words(r.value) == ws[..n];
    }
  }

  /** `summarize_with_local_llm` once the model's reply is known: the gate on
      the stripped excerpt, then the decoded `summary` or the fallback. */
  function Summarize(text: string, reply: LlmReply): (r: Option<string>)
    ensures |Words(Strip(text))| < MinWords ==> r.None?
    ensures |Words(Strip(text))| >= MinWords && reply.JsonObject? ==> r == reply.summary
    ensures |Words(Strip(text))| >= MinWords && reply.NotJson? ==> r == Fallback(reply.response)
  {
    if |Words(Strip(text))| < MinWords then None
    else
      match reply
      case JsonObject(summary) => summary
      case NotJson(response) => Fallback(response)
  }

  /** Below the gate the reply does not matter: no request is made. */
  lemma GateIgnoresReply(text: string, a: LlmReply, b: LlmReply)
    requires |Words(Strip(text))| < MinWords
    ensures Summarize(text, a) == Summarize(text, b) == None
  {
  }

  /** An excerpt made of fewer than six words never reaches the model. */
  lemma ShortExcerptSkipped(ws: seq<string>, reply: LlmReply)
    requires forall k :: 0 <= k < |ws| ==> IsWord(ws[k])
    requires |ws| < MinWords
    ensures Summarize(Join(ws), reply) == None
  {
    WordsOfJoin(ws);
    JoinStripped(ws);
  }

  /** A space-joined list of words has no surrounding whitespace. */
  lemma JoinStripped(ws: seq<string>)
    requires forall k :: 0 <= k < |ws| ==> IsWord(ws[k])
    ensures Strip(Join(ws)) == Join(ws)
  {
    var s := Join(ws);
    if ws != [] {
      JoinEnds(ws);
      assert TrimStartBy(s, IsSpace) == s;
      assert TrimEndBy(s, IsSpace) == s;
    }
  }

  /** The first and last characters of a non-empty join are not spaces. */
  lemma {:induction false} JoinEnds(ws: seq<string>)
    requires ws != []
    requires forall k :: 0 <= k < |ws| ==> IsWord(ws[k])
    ensures Join(ws) != []
    ensures !IsSpace(Join(ws)[0]) && !IsSpace(Join(ws)[|Join(ws)| - 1])
  {
    assert IsWord(ws[0]);
    if |ws| > 1 {
      JoinEnds(ws[1..]);
      var tail := Join(ws[1..]);
      assert Join(ws) == ws[0] + " " + tail;
      assert Join(ws)[0] == ws[0][0];
      assert Join(ws)[|Join(ws)| - 1] == tail[|tail| - 1];
    }
  }
}

=== FILE: text.dfy ===
/** The Python string operations the backend relies on, over `seq<char>`:
    `str.isspace`, `str.strip`, `str.split()` (no argument), `" ".join`,
    ASCII case mapping, substring `in`, and the decimal rendering `f"{n}"`
    of a non-negative integer. */
module Text {

  /** Python's `str.isspace()` for one character: the ASCII controls TAB..CR
      and FS..US, SPACE, and the Unicode space separators and line/paragraph
      separators. */
  predicate IsSpace(c: char) {
    || ('\t' <= c <= '\r')
    || ('\U{1c}' <= c <= '\U{1f}')
    || c == ' '
    || c == '\U{85}'
    || c == '\U{a0}'
    || c == '\U{1680}'
    || ('\U{2000}' <= c <= '\U{200a}')
    || c == '\U{2028}'
    || c == '\U{2029}'
    || c == '\U{202f}'
    || c == '\U{205f}'
    || c == '\U{3000}'
  }

  // ---------------------------------------------------------------------------
  // strip

  /** Drops the leading characters satisfying `drop`. */
  function TrimStartBy(s: string, drop: char -> bool): (r: string)
    ensures |r| <= |s| && r == s[|s| - |r|..]
    ensures forall i :: 0 <= i < |s| - |r| ==> drop(s[i])
    ensures r == [] || !drop(r[0])
    decreases |s|
  {
    if s != [] && drop(s[0]) then TrimStartBy(s[1..], drop) else s
  }

  /** Drops the trailing characters satisfying `drop`. */
  function TrimEndBy(s: string, drop: char -> bool): (r: string)
    ensures |r| <= |s| && r == s[..|r|]
    ensures forall i :: |r| <= i < |s| ==> drop(s[i])
    ensures r == [] || !drop(r[|r| - 1])
    decreases |s|
  {
    if s != [] && drop(s[|s| - 1]) then TrimEndBy(s[..|s| - 1], drop) else s
  }

  /** Python's `s.strip(chars)`: the longest middle slice of `s` that neither
      starts nor ends with a dropped character. */
  function StripBy(s: string, drop: char -> bool): (r: string)
    ensures |r| <= |s|
    ensures r == [] || (!drop(r[0]) && !drop(r[|r| - 1]))
  {
    TrimEndBy(TrimStartBy(s, drop), drop)
  }

  /** What `strip` cuts off on either side consists of dropped characters
      only, and what it keeps is a slice of the input. */
  lemma StripByIsSlice(s: string, drop: char -> bool)
    ensures var r := StripBy(s, drop);
            exists i :: 0 <= i <= |s| - |r| && r <= s[i..]
                        && (forall k :: 0 <= k < i ==> drop(s[k]))
                        && (forall k :: i + |r| <= k < |s| ==> drop(s[k]))
  {
    var t := TrimStartBy(s, drop);
    var r := TrimEndBy(t, drop);
    var i := |s| - |t|;
    assert t == s[i..];
    assert r == t[..|r|];
    assert r <= s[i..];
    assert forall k :: 0 <= k < i ==> drop(s[k]);
    forall k | i + |r| <= k < |s| ensures drop(s[k]) {
      assert s[k] == t[k - i];
    }
    assert r == StripBy(s, drop);
  }

  /** Python's `s.strip()`. */
  function Strip(s: string): string {
    StripBy(s, IsSpace)
  }

  // ---------------------------------------------------------------------------
  // split and join

  /** A word as `str.split()` yields it: non-empty, no whitespace inside. */
  ghost predicate IsWord(w: string) {
    w != [] && forall i :: 0 <= i < |w| ==> !IsSpace(w[i])
  }

  /** Length of the run of non-space characters at the front of `s`. */
  function TokenLength(s: string): (n: nat)
    ensures n <= |s|
    ensures forall i :: 0 <= i < n ==> !IsSpace(s[i])
    ensures n < |s| ==> IsSpace(s[n])
    decreases |s|
  {
    if s == [] || IsSpace(s[0]) then 0 else 1 + TokenLength(s[1..])
  }

  /** Python's `s.split()` with no separator: the maximal whitespace-free runs
      of `s`, in order. */
  function Words(s: string): (ws: seq<string>)
    ensures forall k :: 0 <= k < |ws| ==> IsWord(ws[k])
    decreases |s|
  {
    if s == [] then []
    else if IsSpace(s[0]) then Words(s[1..])
    else
      var n := TokenLength(s);
      [s[..n]] + Words(s[n..])
  }

  /** Python's `" ".join(ws)`. */
  function Join(ws: seq<string>): string {
    if ws == [] then []
    else if |ws| == 1 then ws[0]
    else ws[0] + " " + Join(ws[1..])
  }

  /** Splitting a space-joined list of words gives the list back. */
  lemma {:induction false} WordsOfJoin(ws: seq<string>)
    requires forall k :: 0 <= k < |ws| ==> IsWord(ws[k])
    ensures Words(Join(ws)) == ws
  {
    if ws != [] {
      var w := ws[0];
      var tail: string := if |ws| == 1 then [] else " " + Join(ws[1..]);
      var s := w + tail;
      assert Join(ws) == s;
      assert IsWord(ws[0]);
      assert forall i :: 0 <= i < |w| ==> s[i] == w[i];
      assert |s| > |w| ==> s[|w|] == ' ';
      assert TokenLength(s) == |w|;
      assert s[..|w|] == w;
      assert s[|w|..] == tail;
      if |ws| > 1 {
        WordsOfJoin(ws[1..]);
        assert tail[1..] == Join(ws[1..]);
        assert Words(tail) == Words(Join(ws[1..]));
        assert ws == [w] + ws[1..];
      }
    }
  }

  // ---------------------------------------------------------------------------
  // case mapping and substring search (ASCII letters only)

  function LowerChar(c: char): char {
    if 'A' <= c <= 'Z' then (c as int + 32) as char else c
  }

  function UpperChar(c: char): char {
    if 'a' <= c <= 'z' then (c as int - 32) as char else c
  }

  /** `s.lower()`, mapping the letters A-Z only. */
  function Lower(s: string): (r: string)
    ensures |r| == |s|
  {
    seq(|s|, i requires 0 <= i < |s| => LowerChar(s[i]))
  }

  /** `s.upper()`, mapping the letters a-z only. */
  function Upper(s: string): (r: string)
    ensures |r| == |s|
  {
    seq(|s|, i requires 0 <= i < |s| => UpperChar(s[i]))
  }

  /** Python's `needle in s` for strings. */
  predicate Contains(s: string, needle: string)
    decreases |s|
  {
    needle <= s || (s != [] && Contains(s[1..], needle))
  }

  // ---------------------------------------------------------------------------
  // decimal integers

  predicate IsDigit(c: char) {
    '0' <= c <= '9'
  }

  function DigitChar(d: nat): (c: char)
    requires d < 10
    ensures IsDigit(c)
  {
    ('0' as int + d) as char
  }

  /** `f"{n}"`: the decimal digits of `n`, most significant first. */
  function NatToString(n: nat): (s: string)
    ensures s != []
    ensures forall i :: 0 <= i < |s| ==> IsDigit(s[i])
    decreases n
  {
    if n < 10 then [DigitChar(n)] else NatToString(n / 10) + [DigitChar(n % 10)]
  }

  /** The value of a string of decimal digits (`int(s)` on such a string). */
  function ParseDigits(s: string): nat
    requires forall i :: 0 <= i < |s| ==> IsDigit(s[i])
    decreases |s|
  {
    if s == [] then 0
    else ParseDigits(s[..|s| - 1]) * 10 + DigitValue(s[|s| - 1])
  }

  function DigitValue(c: char): nat
    requires IsDigit(c)
  {
    c as int - '0' as int
  }

  /** Reading back the decimal rendering of `n` gives `n`. */
  lemma {:induction false} ParseNatToString(n: nat)
    ensures ParseDigits(NatToString(n)) == n
    decreases n
  {
    var s := NatToString(n);
    if n >= 10 {
      ParseNatToString(n / 10);
      assert s[..|s| - 1] == NatToString(n / 10);
    }
  }

  /** Distinct numbers render as distinct strings. */
  lemma NatToStringInjective(a: nat, b: nat)
    ensures NatToString(a) == NatToString(b) ==> a == b
  {
    ParseNatToString(a);
    ParseNatToString(b);
  }
}

=== FILE: transcript.dfy ===
/** The transcript window filter of backend/app/services/transcript.py: the
    words spoken around an event, chosen by start time and recognition
    confidence, in transcript order. */
module Transcript {
  import opened Results
  import opened Sequences

  /** One recognised word; any of the timing and confidence fields may be
      missing. */
  datatype TranscribedWord = TranscribedWord(
    text: string,
    start: Option<real>,
    end: Option<real>,
    confidence: Option<real>)

  /** The confidence threshold used when the caller gives none. */
  const DefaultMinConfidence: real := 0.5

  /** The word has a start time inside the closed window
      [eventTime - preWindow, eventTime + postWindow]. */
  predicate StartsInWindow(w: TranscribedWord, eventTime: real, preWindow: real, postWindow: real) {
    w.start.Some? && eventTime - preWindow <= w.start.value <= eventTime + postWindow
  }

  /** The word's confidence is known and below the threshold; an unknown
      confidence is never "too low". */
  predicate LowConfidence(w: TranscribedWord, minConfidence: real) {
    w.confidence.Some? && w.confidence.value < minConfidence
  }

  predicate Keeps(w: TranscribedWord, eventTime: real, preWindow: real, postWindow: real, minConfidence: real) {
    StartsInWindow(w, eventTime, preWindow, postWindow) && !LowConfidence(w, minConfidence)
  }

  /** `align_transcript`: the words that start inside the window and are not of
      known low confidence, in their original order, each as often as in the
      input. */
  function AlignTranscript(
    words: seq<TranscribedWord>, eventTime: real, preWindow: real, postWindow: real, minConfidence: real
  ): (selected: seq<TranscribedWord>)
    ensures IsSubsequence(selected, words)
    ensures forall k :: 0 <= k < |selected| ==> StartsInWindow(selected[k], eventTime, preWindow, postWindow)
    ensures forall k :: 0 <= k < |selected| ==> !LowConfidence(selected[k], minConfidence)
    decreases |words|
  {
    if words == [] then []
    else
      var prefix := words[..|words| - 1];
      var w := words[|words| - 1];
      var keep := Keeps(w, eventTime, preWindow, postWindow, minConfidence);
      var earlier := AlignTranscript(prefix, eventTime, preWindow, postWindow, minConfidence);
      assert words == prefix + [w];
      SubsequenceAppend(earlier, prefix, w, keep);
      earlier + (if keep then [w] else [])
  }

  /** Nothing else is dropped: each word passing the filter is selected as
      often as it occurs in the input, and a failing word never is. */
  lemma {:induction false} AlignTranscriptCounts(
    words: seq<TranscribedWord>, eventTime: real, preWindow: real, postWindow: real, minConfidence: real)
    ensures var selected := AlignTranscript(words, eventTime, preWindow, postWindow, minConfidence);
            forall w :: multiset(selected)[w]
              == if Keeps(w, eventTime, preWindow, postWindow, minConfidence) then multiset(words)[w] else 0
    decreases |words|
  {
    if words != [] {
      var prefix := words[..|words| - 1];
      var w := words[|words| - 1];
      AlignTranscriptCounts(prefix, eventTime, preWindow, postWindow, minConfidence);
      assert words == prefix + [w];
      assert multiset(words) == multiset(prefix) + multiset{w};
      var earlier := AlignTranscript(prefix, eventTime, preWindow, postWindow, minConfidence);
      var added: seq<TranscribedWord> := if Keeps(w, eventTime, preWindow, postWindow, minConfidence) then [w] else [];
      assert AlignTranscript(words, eventTime, preWindow, postWindow, minConfidence) == earlier + added;
      assert multiset(earlier + added) == multiset(earlier) + multiset(added);
    }
  }

  /** Completeness: every input word passing the filter is in the output. */
  lemma {:induction false} AlignTranscriptComplete(
    words: seq<TranscribedWord>, eventTime: real, preWindow: real, postWindow: real, minConfidence: real)
    ensures var selected := AlignTranscript(words, eventTime, preWindow, postWindow, minConfidence);
            forall k :: 0 <= k < |words| && Keeps(words[k], eventTime, preWindow, postWindow, minConfidence)
              ==> words[k] in selected
  {
    var selected := AlignTranscript(words, eventTime, preWindow, postWindow, minConfidence);
    AlignTranscriptCounts(words, eventTime, preWindow, postWindow, minConfidence);
    forall k | 0 <= k < |words| && Keeps(words[k], eventTime, preWindow, postWindow, minConfidence)
      ensures words[k] in selected
    {
      assert multiset(words)[words[k]] > 0;
      assert multiset(selected)[words[k]] > 0;
    }
  }

  /** `align_transcript` called without `min_confidence`. */
  function AlignTranscriptDefault(
    words: seq<TranscribedWord>, eventTime: real, preWindow: real, postWindow: real
  ): seq<TranscribedWord>
  {
    AlignTranscript(words, eventTime, preWindow, postWindow, DefaultMinConfidence)
  }

  /** Under the default threshold a word in the window is dropped exactly when
      its confidence is known and below one half. */
  lemma DefaultThreshold(w: TranscribedWord, eventTime: real, preWindow: real, postWindow: real)
    requires StartsInWindow(w, eventTime, preWindow, postWindow)
    ensures (AlignTranscriptDefault([w], eventTime, preWindow, postWindow) == [])
            <==> (w.confidence.Some? && w.confidence.value < 0.5)
  {
    var r := AlignTranscriptDefault([w], eventTime, preWindow, postWindow);
    assert [w][..0] == [];
    if !LowConfidence(w, DefaultMinConfidence) {
      assert w in r;
    }
  }

  /** A list whose words all pass the filter comes back unchanged. */
  lemma {:induction false} AlignKeepsPassingWords(
    words: seq<TranscribedWord>, eventTime: real, preWindow: real, postWindow: real, minConfidence: real)
    requires forall k :: 0 <= k < |words| ==> Keeps(words[k], eventTime, preWindow, postWindow, minConfidence)
    ensures AlignTranscript(words, eventTime, preWindow, postWindow, minConfidence) == words
    decreases |words|
  {
    if words != [] {
      var prefix := words[..|words| - 1];
      AlignKeepsPassingWords(prefix, eventTime, preWindow, postWindow, minConfidence);
      assert words == prefix + [words[|words| - 1]];
    }
  }

  /** Filtering an already filtered list with the same arguments changes nothing. */
  lemma AlignIdempotent(
    words: seq<TranscribedWord>, eventTime: real, preWindow: real, postWindow: real, minConfidence: real)
    ensures var once := AlignTranscript(words, eventTime, preWindow, postWindow, minConfidence);
            AlignTranscript(once, eventTime, preWindow, postWindow, minConfidence) == once
  {
    var once := AlignTranscript(words, eventTime, preWindow, postWindow, minConfidence);
    AlignKeepsPassingWords(once, eventTime, preWindow, postWindow, minConfidence);
  }
}
